=== FILE: README.md ===
# Membership applications ("tesseramenti"): lifecycle, audit and listing

This project models the core of a membership-registration back end. An applicant submits an application
("tesseramento"). Staff are assigned to it and move it through the statuses `pending`, `in_review`,
`completed` and `rejected`. Every change writes one row to an append-only audit log, inside the same
database transaction as the change. Staff dashboards list applications with filters, sorting,
pagination and per-row counts. The staff-only routes sit behind a JSON Web Token middleware.

The model is functional. The database is a `Records.Store`:
- maps from id to row for users, applications and staff;
- sequences for documents and chat messages, which the core only reads;
- an append-only sequence for `audit_log`.

Each Express handler becomes a pure function from the old store and its inputs to an HTTP response,
a new store and an ordered list of effects. The effects are the commands sent on the transaction's
client and the emitted socket event.

Modules, following the source files:

- `Database` (`backend/config/database.js`): `Transaction` runs a callback between BEGIN and
  COMMIT and records the command trace. The callback's effects are kept if and only if COMMIT
  succeeds. `Query` runs a stand-alone statement. A `Pool` value says which pool or server step
  fails and with what error.
- `Auth` (`backend/middleware/auth.js`): the token payloads, the `authenticateToken` decision ladder
  and `requireAdmin`. `jwt.sign` and `jwt.verify` are function parameters.
- `Records`: the rows, the store and its consistency predicate `Valid`.
- `Listing` (`getTesseramenti`, `getTesseramento`): the WHERE clause as typed conditions with
  numbered placeholders, and PostgreSQL's meaning for a query and its bound parameters. ORDER BY
  sorts by a `Ranking`, an integer rank per column and joined row that stands for the database's
  comparison of that column's values.
- `Ordering`: a stable sort by an integer key, with its permutation and order lemmas.
- `Lifecycle` (`createTesseramento`, `updateStatus`, `assignToStaff`).
- `Fanout`: the socket.io room `tesseramento_<id>` that `backend/server.js` joins and the controller
  emits to.
- `Text`, `Common`: string and option helpers.
- `Scenario`: the worked example (submit, review, reject).

The model follows the code, including where its behaviour departs from what its comments and messages suggest:
- A status change on a missing application answers 500, not 404.
- `completion_date` is re-stamped on every change to `completed`, not set only once.
- A rejection reason is stored as supplied, even when absent or empty.
- The socket room is `tesseramento_<id>`, not `application_<id>`.
- `authenticateToken` reads only `decoded.id`, so a refresh token is accepted where an access token
  is expected (`Auth.RefreshTokenAlsoAuthenticates`).

## Model

| member | source | states |
|---|---|---|
| Database.Transaction | backend/config/database.js:41-54 | Callback effects survive only when the transaction succeeds. A failure leaves the store unchanged. Success happens exactly when connect, BEGIN, the callback and COMMIT all succeed; the trace is then BEGIN, the callback's statements, COMMIT, release, and the callback's value is returned. After acquisition, BEGIN is first and the release is last. Any failure is followed by ROLLBACK. When ROLLBACK succeeds, the error rethrown is the one raised by BEGIN, the callback or COMMIT, whichever failed first; when ROLLBACK fails, its own error replaces it. A failed acquisition sends nothing and rethrows the acquisition error. |
| Database.TransactionReleasesOnce | backend/config/database.js:41-54 | The client is released exactly once after a successful acquisition and never after a failed one. BEGIN is sent once, COMMIT at most once, and ROLLBACK exactly when the transaction fails after acquisition. |
| Database.Query | backend/config/database.js:24-38 | A stand-alone query returns the server's result unchanged when it succeeds. It fails exactly when the pool or the statement fails, and the pool's error, or else the statement's, is rethrown unchanged. |
| Database.RowKeyOfRendering | backend/controllers/tesseramentiController.js:271-279 | The decimal rendering of any id within int4 range addresses that same id. |
| Auth.BearerToken | backend/middleware/auth.js:37-44 | A token exists exactly when the header is present and its space-split has a non-empty second piece. A token is never empty and contains no space. |
| Auth.BearerTokenOfHeader | backend/middleware/auth.js:37-38 | For any space-free scheme word, `<scheme> <token>` yields exactly `<token>`. |
| Auth.VerifyDenial | backend/middleware/auth.js:72-90 | TokenExpiredError gives the expired-token denial (401). JsonWebTokenError gives the invalid-token denial (401). Any other error name is a 500. |
| Auth.Authenticate | backend/middleware/auth.js:35-44 | A request whose Authorization header is missing, or has no non-empty second word, is refused with the token-required denial and `next` is not called. Whenever `next` is called, the admitted staff row is active. |
| Auth.AuthenticateNextIff | backend/middleware/auth.js:46-70 | `next` is called exactly when a token is present, it verifies, the lookup runs, and the decoded id names an existing active staff row. `req.staff` is then that row. |
| Auth.AuthenticateDenials | backend/middleware/auth.js:40-90 | No token is a 401 without calling `next`. An unknown staff id is a 401. An inactive account is a 401. An expired token is a 401 with code TOKEN_EXPIRED. A JsonWebTokenError is a 401 (invalid token). Any other verification error is a 500, and so is a failing staff lookup. |
| Auth.GeneratedAccessTokenAuthenticates | backend/middleware/auth.js:9-70 | For any signer whose tokens verify back to the payload they were signed with: the access token of an active staff member, sent as `Bearer <token>`, admits that member, and `req.staff` is its row. |
| Auth.GeneratedPayloads | backend/middleware/auth.js:9-32 | The access token carries {id, username, email, role} of the staff row and is signed with expiry 24h and issuer aoway-tesseramento. The refresh token carries {id, type: 'refresh'} and is signed with expiry 7d and the same issuer. |
| Auth.RefreshTokenAlsoAuthenticates | backend/middleware/auth.js:22-52 | For the same kind of signer, the refresh token also admits its active staff member, because the ladder reads only the decoded id. |
| Auth.RequireAdmin | backend/middleware/auth.js:94-101 | `next` is called exactly for role 'admin', with the same staff row. Every other role is a 403. |
| Fanout.EventReachesSubscribers | backend/server.js:92-93 | An event emitted to the room `tesseramento_<text>` reaches exactly the sockets that joined with that same id text. Rooms of different id texts never collide. |
| Listing.BuildFilter | backend/controllers/tesseramentiController.js:17-43 | Each present filter adds exactly one condition and one parameter, so there are as many conditions as present filters. Placeholders are numbered 1, 2, … in order, and the next index is one past the last parameter. A column appears exactly when its filter is present; search uses one shared placeholder. |
| Listing.FilterMeansSelected | backend/controllers/tesseramentiController.js:17-43 | A row satisfies the AND of the built conditions under the bound parameters exactly when it meets every present filter. Search means a case-insensitive substring of name, email or fiscal code. |
| Listing.MatchingRows | backend/controllers/tesseramentiController.js:79-82 | Every returned row satisfies the WHERE clause. Every joined application that satisfies it is returned. |
| Listing.MatchingRowsCount | backend/controllers/tesseramentiController.js:79-82 | There are exactly as many rows as matching application ids, so no application appears twice. |
| Listing.ApprovedWithinDocuments | backend/controllers/tesseramentiController.js:77-78 | A row's approved-document count never exceeds its document count. |
| Listing.DocumentsCountIsListLength | backend/controllers/tesseramentiController.js:168-176 | The listing's document count equals the length of the single fetch's document list. |
| Listing.Annotate | backend/controllers/tesseramentiController.js:76-78 | Each listed row keeps its joined row, and its approved-document count is at most its document count. |
| Listing.AnnotateCounts | backend/controllers/tesseramentiController.js:76-78 | Each of a listed row's three counts is the size of the set of table positions selected by its subquery's WHERE clause: unread messages sent by the user, documents, approved documents. The document count also equals the length of the single fetch's document list. |
| Listing.SortColumn | backend/controllers/tesseramentiController.js:46-47 | The sort column is always in the allow-list. It equals `sort_by` exactly when `sort_by` is allowed, and is created_at otherwise; the choice never fails. |
| Listing.AscendingSpellings | backend/controllers/tesseramentiController.js:48 | The direction is ASC exactly for the eight ASCII letter-case spellings of "asc", and DESC for every other string. |
| Listing.TotalPagesIsCeiling | backend/controllers/tesseramentiController.js:104 | total_pages is the least number of `limit`-row pages that hold `total` rows. It is 0 exactly when there are no rows. |
| Listing.PaginationFlags | backend/controllers/tesseramentiController.js:113-120 | has_next holds exactly when rows remain after this page (page·limit < total). has_prev holds exactly when the offset is positive. |
| Listing.PaginationExample | backend/controllers/tesseramentiController.js:51-120 | With 45 rows, limit 20 and page 3: 3 pages, offset 40, no next page, a previous page. |
| Listing.RunCount | backend/controllers/tesseramentiController.js:90-100 | The count query succeeds exactly when it receives as many parameters as its highest placeholder, and otherwise fails with the parameter-count error. On success it equals the number of matching application ids. |
| Listing.RunPage | backend/controllers/tesseramentiController.js:54-99 | An ORDER BY column its table lacks fails with 42703 before any parameter is looked at. Otherwise a parameter count other than the highest placeholder fails: with 42P02 when nothing is sent (node-postgres then uses the simple protocol, with no $1), and with 08P01 when values are sent. A success was bound with exactly as many values as placeholders, and holds at most as many rows as match the WHERE clause. |
| Listing.RunPageInOrder | backend/controllers/tesseramentiController.js:83 | Whatever statement runs, the rows of a successful main query are in its ORDER BY order: each row's key, the column's rank ascending or its negation descending, is at most the next row's. |
| Listing.ListingAsWrittenAlwaysFails | backend/controllers/tesseramentiController.js:83-101 | The main query references two more placeholders than the `slice(0, -2)` parameters it receives, so every listing request answers 500. The error is 42P02 with no filters and 08P01 with filters, or 42703 when sorting by full_name. The count query alone is bound correctly. |
| Listing.FullNameSortAsWrittenFails | backend/controllers/tesseramentiController.js:46-83 | Even with all parameters bound, `ORDER BY t.full_name` names a column that `tesseramenti` lacks, so sort_by=full_name answers 500. Every other sort choice behaves as the corrected listing. |
| Listing.SortColumnResolves | backend/controllers/tesseramentiController.js:46-47 | Every allow-listed sort column exists under the alias of the table that has it. Under `t` it exists exactly when it is not full_name. |
| Listing.GetTesseramenti | backend/controllers/tesseramentiController.js:4-129 | With the full parameters bound and the sort column qualified by the table that has it, the answer is 200 exactly when the pool works and page ≥ 1, and 500 otherwise. A page has at most `limit` rows. Every row meets the filters, and its approved count is at most its document count. The rows follow the requested sort column and direction. |
| Listing.CorrectedPage | backend/controllers/tesseramentiController.js:83-101 | The count query receives exactly the filter parameters and counts the matching rows. The main query succeeds exactly for page ≥ 1. It then returns `PageOf` the matching rows: the window from offset (page−1)·limit, at most `limit` long, of the matching rows sorted by the requested column and direction (`Listing.OrderedPermutes`, `Listing.PageOfInOrder`). |
| Listing.PageSelected | backend/controllers/tesseramentiController.js:17-43 | Every row of a successful page meets every present filter. |
| Listing.PageInOrder | backend/controllers/tesseramentiController.js:46-83 | The rows of a successful page are in order of the allow-listed sort column, ascending or descending as requested. |
| Listing.OrderedPermutes | backend/controllers/tesseramentiController.js:83 | ORDER BY neither adds, drops nor repeats a row: the sorted rows are a permutation of the matching rows, with the same members and length, in key order. |
| Listing.PageOf | backend/controllers/tesseramentiController.js:83-84 | A page from offset `off` of at most `lim` rows holds min(lim, rows − off) rows, or none past the end. |
| Listing.PageOfInOrder | backend/controllers/tesseramentiController.js:83-84 | Any window of the sorted rows keeps the sort order. |
| Listing.FirstPageLeads | backend/controllers/tesseramentiController.js:83-84 | Page 1 is empty exactly when no row matches. Otherwise its first row sorts no later than any matching row. |
| Listing.DefaultListingNewestFirst | backend/controllers/tesseramentiController.js:13-14 | With created_at ranked by creation time and the default order, page 1 opens with an application created no earlier than any matching one. |
| Listing.Destructure | backend/controllers/tesseramentiController.js:6-15 | The filters are taken as given. An absent page, limit, sort_by or sort_order takes 1, 20, created_at or DESC, and a present one is kept. |
| Listing.BareRequest | backend/controllers/tesseramentiController.js:6-15 | A request with no query parameters answers 200 with page 1, 20 per page, at most 20 rows, newest applications first. |
| Listing.ListingPage | backend/controllers/tesseramentiController.js:51-120 | The pagination total is the number of matching application ids. The page holds min(limit, total − offset) rows, or none past the end. |
| Listing.GetTesseramento | backend/controllers/tesseramentiController.js:132-189 | The path id is text cast by the database: text that is not an int4 answers 500, as does a failing pool. 404 exactly when the id is negative or the join finds no row. Otherwise 200 with the joined row and exactly that application's documents, newest upload first. |
| Listing.DocumentList | backend/controllers/tesseramentiController.js:168-176 | The document list holds the application's documents, each as often as stored, ordered by upload time descending. |
| Ordering.SortByPermutes | backend/controllers/tesseramentiController.js:83 | The sort returns a permutation of its input. |
| Ordering.SortBySorted | backend/controllers/tesseramentiController.js:83 | The sort's output is in key order. |
| Ordering.SortByMembers | backend/controllers/tesseramentiController.js:83 | The sort keeps the length and the members of its input. |
| Lifecycle.FindUser | backend/controllers/tesseramentiController.js:198-207 | The result is a user matching by email or fiscal code, with no matching user before it. No result means no user in range matches. |
| Lifecycle.FindUserComplete | backend/controllers/tesseramentiController.js:198-205 | On a consistent store, the lookup finds a user exactly when some user matches by email or fiscal code. |
| Lifecycle.UpsertFindsOrInserts | backend/controllers/tesseramentiController.js:205-228 | When a match exists, no key is added, and the matching user gets only the profile fields and update time. Otherwise exactly one new key with the new user is added. All other users are unchanged. |
| Lifecycle.SubmitApplicant | backend/controllers/tesseramentiController.js:198-228 | A matching applicant keeps email and fiscal code; only full_name, phone, birth_date, address, city and postal_code are overwritten. Otherwise the user count grows by exactly one. |
| Lifecycle.SubmitApplication | backend/controllers/tesseramentiController.js:231-243 | Exactly one new application is added: pending, fee 50.00, unassigned, owned by the applicant. Exactly one 'created' entry is appended, with no staff actor and the inserted row as new value. Staff, documents and messages are unchanged. |
| Lifecycle.SubmitCommits | backend/controllers/tesseramentiController.js:196-254 | When the transaction can commit, the answer is 201 with the inserted row and applicant id, and the callback's store is kept. |
| Lifecycle.SubmitAtomic | backend/controllers/tesseramentiController.js:196-267 | A submission fails exactly when the transaction cannot commit. It then changes nothing and answers 409 or 500. |
| Lifecycle.SubmitConflict | backend/controllers/tesseramentiController.js:256-266 | A submission answers 409 exactly when the error its transaction rethrows is 23505, whether acquisition, BEGIN or COMMIT raised it, or a failing ROLLBACK replaced it. A 409 leaves the store unchanged. |
| Lifecycle.CreateFailureStatus | backend/controllers/tesseramentiController.js:256-266 | A unique violation (23505) answers 409; every other error answers 500. |
| Lifecycle.UpsertKeepsKeysUnique | backend/controllers/tesseramentiController.js:198-228 | Find-or-create never gives two users the same email or the same fiscal code, and all user ids stay below the next id. |
| Lifecycle.SubmitKeepsValid | backend/controllers/tesseramentiController.js:196-246 | A submission keeps the store consistent: unique keys, owned applications, audit rows pointing at applications. |
| Lifecycle.ApplyStatus | backend/controllers/tesseramentiController.js:291-297 | Rejection reason is the supplied value when rejected, else null. Completion date is now when completed, else the previous value. Notes fall back to the previous notes when the supplied ones are falsy. Only status, notes, rejection_reason, completion_date and updated_at change. |
| Lifecycle.StatusChangeKeepsRecordRules | backend/controllers/tesseramentiController.js:291-297 | Whatever the previous row, the written row has a rejection reason only when rejected and a completion date when completed. A completion date once set is never cleared. |
| Lifecycle.UpdateStatusSucceeds | backend/controllers/tesseramentiController.js:277-336 | A committed change to the application the id text addresses answers 200 with the rewritten row, and nothing else in the store changes. Exactly one 'status_changed' entry is appended: old value is the status read in the same transaction, new value is the raw {status, notes, rejection_reason}. The commands are BEGIN, read, update, audit insert, COMMIT, release, then the event to `tesseramento_<id text>` with new_status. |
| Lifecycle.UpdateStatusMissing | backend/controllers/tesseramentiController.js:279-343 | An id text that addresses no application (malformed, negative or absent) answers 500 (not 404), writes nothing, rolls back and emits no event. |
| Lifecycle.PaddedIdMissesSubscribers | backend/controllers/tesseramentiController.js:271-331 | The ids "07" and "7" change application 7 identically. The event for "07" goes to `tesseramento_07`, which a socket that joined "7" does not receive. |
| Lifecycle.EventOnlyAfterCommit | backend/controllers/tesseramentiController.js:321-331 | The event is emitted exactly on success: as the last effect, after COMMIT and release, and only once. On failure there is no event and no change. |
| Lifecycle.UpdateStatusKeepsValid | backend/controllers/tesseramentiController.js:277-321 | A status change keeps the store consistent, including the per-row rejection and completion rules. |
| Lifecycle.ActiveStaff | backend/controllers/tesseramentiController.js:354-357 | The check finds a row exactly when the staff id exists and is active. |
| Lifecycle.AssignRejectsInvalidStaff | backend/controllers/tesseramentiController.js:349-363 | With a working pool, the answer is 400 exactly when staff_id is missing or null, or names no active staff member. A staff_id that is not int4 text answers 500. In both cases no transaction runs: no command, no change, no audit. |
| Lifecycle.AssignMissingApplication | backend/controllers/tesseramentiController.js:367-380 | A valid target but a missing application rolls back and answers 500, with nothing written. |
| Lifecycle.AssignSucceeds | backend/controllers/tesseramentiController.js:367-398 | A committed assignment answers 200. Only assigned_staff_id and updated_at of that application change. Exactly one 'assigned' entry with {assigned_to, assigned_by} is appended. |
| Lifecycle.AssignKeepsValid | backend/controllers/tesseramentiController.js:354-391 | An assignment keeps the store consistent; an assigned staff id always names a staff row. |
| Lifecycle.AuditPerMutation | backend/controllers/tesseramentiController.js:196-391 | Each of the three mutating handlers either succeeds having appended exactly one audit entry, keeping the earlier log as a prefix, or changes nothing at all. |
| Scenario.SubmitReviewReject | backend/controllers/tesseramentiController.js:192-344 | Starting from an empty store whose id sequences start at 1: submit application 1, move to in_review, then reject with "incomplete documents". The result is rejected with that reason, one 'created' and two 'status_changed' entries (the last with old status in_review), and a final `status_updated` event with the new status. |

## Left out

- Express, helmet, CORS, compression, rate limiting, route wiring and socket.io connection handling are framework plumbing. Only the room name is modelled.
- Pool configuration and pool events (timeouts, SSL, `process.exit`) are not modelled. Every pool and server failure is a field of `Database.Pool`; `queryErr` applies to every stand-alone query of one request.
- Statements inside a callback fail in the model only when the path id is not int4 text (22P02, or 22003 out of range), which PostgreSQL reports on the first statement that casts it. Apart from that, a callback raises only the handler's own not-found error; other failures come from BEGIN, COMMIT, ROLLBACK or acquisition.
- JWT cryptography, expiry and issuer checking: `jwt.sign` and `jwt.verify` are parameters, and payloads are the two `Auth.Claims` shapes.
- Concurrency and isolation are not modelled. This includes the non-locking read in `updateStatus`, the staff check outside the transaction in `assignToStaff`, and the find-or-create race that can raise 23505. The model is sequential, where 23505 cannot arise from the user insert (`Lifecycle.UpsertKeepsKeysUnique`). The 409 path is reachable only through a failing `Pool` step that reports 23505, for example at COMMIT (`Lifecycle.SubmitConflict`).
- Serial sequences: the id counters are restored on rollback, whereas PostgreSQL does not restore consumed sequence values.
- SQL beyond abstract predicates: how the database compares values (collation, NULL placement) is the `Listing.Ranking` parameter, not modelled. Rows with equal keys come in application-id order, which is one of the orders PostgreSQL may return for ties. The first of several users matching a submission is the one with the least id. `%` and `_` inside the search text are treated literally. Case folding is ASCII only, both for ILIKE and for `toUpperCase`.
- Listing.GetTesseramenti: requires limit ≥ 1, because limit = 0 makes `Math.ceil(total / 0)` non-numeric. Negative limits and JavaScript coercion of `page`/`limit` strings are not modelled; page and limit are integers (`Listing.RawQuery`), an empty `?page=` is not distinguished from a number, and `assigned_staff_id` is a number.
- Listing.GetTesseramentiAsWritten: requires limit ≥ 1 for the same reason.
- Decimal and JSON encodings are not modelled: the fee is 5000 cents, audit snapshots are a datatype rather than `JSON.stringify` output, the assignment entry records the staff id as the parsed key where the source stringifies the raw `staff_id` body value, and timestamps are integers supplied by the caller (`now`).
- `CURRENT_TIMESTAMP` in the user update and the assignment, and `new Date()` in `updateStatus`, are all the caller's `now`.
- The audit row's own timestamp column, response message strings and console logging are not modelled. This includes the timing and `LOG_QUERIES` logging of `Database.Query` and its error log before rethrowing.
- Table schemas are not part of this model. A column that an insert leaves unset (payment_status, payment_reference, payment_date, notes, rejection_reason, completion_date) is taken to default to NULL. The column lists behind `Listing.ColumnExists` come from the statements the handlers send.
- Database.ParseInt4: leading and trailing spaces, and the underscore and non-decimal forms that newer PostgreSQL versions accept in int4 text, are not modelled; such text is a 22P02 error in the model.
- Lifecycle.AssignRejectsInvalidStaff: `staff_id` is modelled as the text it renders to, so a JSON number is its decimal digits. JSON booleans, fractions and objects are not modelled.
- Fanout.EventReachesSubscribers: the id a socket joins with is modelled as text. A non-string id is taken by its string rendering, which is what the room name template uses.
- Validation middleware (`validate(...)`) is not modelled. Statuses are the four enumerated values, and the submission and status bodies are taken as validated.

## Findings

| source | as written | input that shows it | evidently intended | confidence | as-written member | corrected member |
|---|---|---|---|---|---|---|
| backend/controllers/tesseramentiController.js:99 | The main listing query ends in `LIMIT $n+1 OFFSET $n+2`, but it is sent `queryParams.slice(0, -2)`: the n filter values without limit and offset. | `GET /api/tesseramenti` with no filters, page 1, limit 20: the statement references $1 and $2 but is sent no values, so node-postgres sends it as a simple query and PostgreSQL reports no parameter $1 (42P02). With a status filter it is sent one value for three placeholders, and PostgreSQL refuses the bind message (08P01). Either way the handler answers 500. | Bind the full `queryParams` to the main query and the sliced list only to the count query. | not executed; relies on node-postgres using the simple protocol when no values are given, and on PostgreSQL refusing a parameter count that differs from the statement's | Listing.ListingAsWrittenAlwaysFails | Listing.GetTesseramenti |
| backend/controllers/tesseramentiController.js:83 | `ORDER BY t.${sortColumn}` qualifies every allow-listed sort column with the `tesseramenti` alias, including `full_name`, which belongs to `users`. | `GET /api/tesseramenti?sort_by=full_name` once the parameters are bound in full: `t.full_name` does not resolve (42703) and the handler answers 500. | Qualify `full_name` with `u` (the alias of the table that has it). | not executed; plausible but unverified, since the `tesseramenti` schema is not among the sources and its columns are inferred from the handlers' statements | Listing.FullNameSortAsWrittenFails | Listing.GetTesseramenti |

=== FILE: auth.dfy ===
/**
 * `backend/middleware/auth.js`: the token payloads of `generateTokens`, the decision ladder of
 * `authenticateToken` and the role check of `requireAdmin`. Signing and verifying a JSON Web Token are
 * foreign calls and enter as function parameters.
 */
module Auth {
  import opened Common
  import opened Records
  import Database
  import Text

  /** The decoded payload of a token: an access token or a refresh token. */
  datatype Claims = Access(id: nat, username: string, email: string, role: string) | Refresh(id: nat, kind: string)

  datatype SignOptions = SignOptions(expiresIn: string, issuer: string)

  const Issuer := "aoway-tesseramento"
  const AccessOptions := SignOptions("24h", Issuer)
  const RefreshOptions := SignOptions("7d", Issuer)

  datatype Tokens = Tokens(accessToken: string, refreshToken: string)

  /** `generateTokens`: the access payload carries id, username, email and role; the refresh payload
      carries only the id and the marker `type: 'refresh'`. */
  function GenerateTokens(st: Staff, sign: (Claims, SignOptions) -> string): Tokens {
    Tokens(sign(Access(st.id, st.username, st.email, st.role), AccessOptions),
           sign(Refresh(st.id, "refresh"), RefreshOptions))
  }

  /** What a token carries back: decoding a signed token yields its payload, and its header its options.
      The access token then carries exactly id, username, email and role, valid 24h; the refresh token
      only the id and `type: 'refresh'`, valid 7 days; both name the issuer. */
  lemma GeneratedPayloads(st: Staff, sign: (Claims, SignOptions) -> string, verify: string -> Verification,
                          optionsOf: string -> SignOptions)
    requires forall c, o :: verify(sign(c, o)) == Decoded(c)
    requires forall c, o :: optionsOf(sign(c, o)) == o
    ensures verify(GenerateTokens(st, sign).accessToken) == Decoded(Access(st.id, st.username, st.email, st.role))
    ensures verify(GenerateTokens(st, sign).refreshToken) == Decoded(Refresh(st.id, "refresh"))
    ensures optionsOf(GenerateTokens(st, sign).accessToken) == SignOptions("24h", "aoway-tesseramento")
    ensures optionsOf(GenerateTokens(st, sign).refreshToken) == SignOptions("7d", "aoway-tesseramento")
  {
    var t := GenerateTokens(st, sign);
    assert t.accessToken == sign(Access(st.id, st.username, st.email, st.role), AccessOptions);
    assert t.refreshToken == sign(Refresh(st.id, "refresh"), RefreshOptions);
  }

  /** What `jwt.verify` does with a token: the payload, or the `name` of the error it throws. */
  datatype Verification = Decoded(claims: Claims) | VerifyError(name: string)

  /** Why a request is refused. */
  datatype Denial = TokenRequired | StaffNotFound | AccountDisabled | TokenExpired | TokenInvalid | AuthFailure | NotAdmin

  /** The middleware's verdict: call `next` with `req.staff` set, or answer with an error. */
  datatype Decision = Next(staff: Staff) | Deny(reason: Denial)

  function DenialStatus(d: Denial): nat {
    match d
    case AuthFailure => 500
    case NotAdmin => 403
    case _ => 401
  }

  /** The `code` field of the error body; only an expired token carries one. */
  function DenialCode(d: Denial): Option<string> {
    if d == TokenExpired then Some("TOKEN_EXPIRED") else None
  }

  /** `authHeader && authHeader.split(' ')[1]`, where only a non-empty value counts as a token. */
  function BearerToken(header: Option<string>): (token: Option<string>)
    ensures token.Some? ==> token.value != "" && ' ' !in token.value
    ensures token.Some? <==> header.Some? && |Text.Split(header.value)| >= 2 && Text.Split(header.value)[1] != ""
  {
    if header.None? || header.value == "" then None
    else
      var parts := Text.Split(header.value);
      if |parts| >= 2 && parts[1] != "" then Some(parts[1]) else None
  }

  /** `Authorization: Bearer <token>` yields the token, for any scheme word without spaces. */
  lemma BearerTokenOfHeader(scheme: string, token: string)
    requires ' ' !in scheme && ' ' !in token && token != ""
    ensures BearerToken(Some(scheme + " " + token)) == Some(token)
  {
    Text.SplitFirstWord(scheme, token);
    Text.SplitWord(token);
  }

  /** The catch block: the error `name` decides between 401 and 500. */
  function VerifyDenial(name: string): (d: Denial)
    ensures d == TokenExpired <==> name == "TokenExpiredError"
    ensures d == TokenInvalid <==> name == "JsonWebTokenError"
    ensures DenialStatus(d) == 401 || d == AuthFailure
  {
    if name == "TokenExpiredError" then TokenExpired
    else if name == "JsonWebTokenError" then TokenInvalid
    else AuthFailure
  }

  function LookupStaff(staff: map<nat, Staff>, id: nat): Option<Staff> {
    if id in staff then Some(staff[id]) else None
  }

  function ClaimsId(c: Claims): nat {
    match c
    case Access(id, _, _, _) => id
    case Refresh(id, _) => id
  }

  /**
   * `authenticateToken`: no token, 401; a token `jwt.verify` rejects, 401 or 500 by error name; then the
   * staff row of the decoded id must exist (else 401) and be active (else 401); a failing lookup query
   * reaches the catch block as a database error, 500.
   */
  function Authenticate(header: Option<string>, verify: string -> Verification, pool: Database.Pool,
                        staff: map<nat, Staff>): (d: Decision)
    ensures BearerToken(header).None? ==> d == Deny(TokenRequired)
    ensures d.Next? ==> d.staff.isActive
  {
    var token := BearerToken(header);
    if token.None? then Deny(TokenRequired)
    else
      match verify(token.value)
      case VerifyError(name) => Deny(VerifyDenial(name))
      case Decoded(claims) =>
        var row := Database.Query(pool, Ok(LookupStaff(staff, ClaimsId(claims))));
        if row.Err? then Deny(AuthFailure)
        else if row.value.None? then Deny(StaffNotFound)
        else if !row.value.value.isActive then Deny(AccountDisabled)
        else Next(row.value.value)
  }

  /** `next` is called exactly when a token is present and verifies, the lookup runs, and the decoded id
      names an active staff member; `req.staff` is then that member's row. */
  lemma AuthenticateNextIff(header: Option<string>, verify: string -> Verification, pool: Database.Pool,
                            staff: map<nat, Staff>)
    ensures Authenticate(header, verify, pool, staff).Next? <==>
      && BearerToken(header).Some?
      && verify(BearerToken(header).value).Decoded?
      && pool.queryErr.None?
      && ClaimsId(verify(BearerToken(header).value).claims) in staff
      && staff[ClaimsId(verify(BearerToken(header).value).claims)].isActive
    ensures Authenticate(header, verify, pool, staff).Next? ==>
      Authenticate(header, verify, pool, staff).staff == staff[ClaimsId(verify(BearerToken(header).value).claims)]
  {
  }

  /** The refusals of the ladder, each with its status. */
  lemma AuthenticateDenials(header: Option<string>, verify: string -> Verification, pool: Database.Pool,
                            staff: map<nat, Staff>)
    ensures BearerToken(header).None? ==> Authenticate(header, verify, pool, staff) == Deny(TokenRequired)
    ensures BearerToken(header).Some? && verify(BearerToken(header).value).Decoded? && pool.queryErr.None?
            ==> var id := ClaimsId(verify(BearerToken(header).value).claims);
                (id !in staff ==> Authenticate(header, verify, pool, staff) == Deny(StaffNotFound))
                && (id in staff && !staff[id].isActive ==> Authenticate(header, verify, pool, staff) == Deny(AccountDisabled))
    ensures BearerToken(header).Some? && verify(BearerToken(header).value) == VerifyError("TokenExpiredError")
            ==> var d := Authenticate(header, verify, pool, staff);
                d == Deny(TokenExpired) && DenialStatus(d.reason) == 401 && DenialCode(d.reason) == Some("TOKEN_EXPIRED")
    ensures BearerToken(header).Some? && verify(BearerToken(header).value) == VerifyError("JsonWebTokenError")
            ==> var d := Authenticate(header, verify, pool, staff);
                d == Deny(TokenInvalid) && DenialStatus(d.reason) == 401
    ensures BearerToken(header).Some? && verify(BearerToken(header).value).VerifyError?
            && verify(BearerToken(header).value).name !in {"TokenExpiredError", "JsonWebTokenError"}
            ==> var d := Authenticate(header, verify, pool, staff);
                d == Deny(AuthFailure) && DenialStatus(d.reason) == 500
    ensures BearerToken(header).Some? && verify(BearerToken(header).value).Decoded? && pool.queryErr.Some?
            ==> var d := Authenticate(header, verify, pool, staff);
                d == Deny(AuthFailure) && DenialStatus(d.reason) == 500
  {
  }

  /** A freshly generated access token, sent as a bearer token, admits its staff member while active. */
  lemma GeneratedAccessTokenAuthenticates(st: Staff, sign: (Claims, SignOptions) -> string,
                                          verify: string -> Verification, staff: map<nat, Staff>)
    requires forall c, o :: verify(sign(c, o)) == Decoded(c)
    requires ' ' !in GenerateTokens(st, sign).accessToken && GenerateTokens(st, sign).accessToken != ""
    requires st.id in staff && staff[st.id].isActive
    ensures Authenticate(Some("Bearer " + GenerateTokens(st, sign).accessToken), verify, Database.Healthy, staff)
            == Next(staff[st.id])
  {
    var token := GenerateTokens(st, sign).accessToken;
    assert token == sign(Access(st.id, st.username, st.email, st.role), AccessOptions);
    assert "Bearer " + token == "Bearer" + " " + token;
    BearerTokenOfHeader("Bearer", token);
  }

  /** The ladder reads only the id of the decoded payload, so a refresh token is accepted in place of an
      access token. */
  lemma RefreshTokenAlsoAuthenticates(st: Staff, sign: (Claims, SignOptions) -> string,
                                      verify: string -> Verification, staff: map<nat, Staff>)
    requires forall c, o :: verify(sign(c, o)) == Decoded(c)
    requires ' ' !in GenerateTokens(st, sign).refreshToken && GenerateTokens(st, sign).refreshToken != ""
    requires st.id in staff && staff[st.id].isActive
    ensures Authenticate(Some("Bearer " + GenerateTokens(st, sign).refreshToken), verify, Database.Healthy, staff)
            == Next(staff[st.id])
  {
    var token := GenerateTokens(st, sign).refreshToken;
    assert token == sign(Refresh(st.id, "refresh"), RefreshOptions);
    assert "Bearer " + token == "Bearer" + " " + token;
    BearerTokenOfHeader("Bearer", token);
  }

  /** `requireAdmin`: `next` exactly for the role 'admin', 403 otherwise. */
  function RequireAdmin(st: Staff): (d: Decision)
    ensures d.Next? <==> st.role == "admin"
    ensures d.Next? ==> d.staff == st
    ensures d.Deny? ==> DenialStatus(d.reason) == 403
  {
    if st.role != "admin" then Deny(NotAdmin) else Next(st)
  }
}

=== FILE: common.dfy ===
/** Optional values and results with an error, shared by every module of the model. */
module Common {

  /** A value that may be absent (JavaScript `undefined`/`null`, SQL `NULL`). */
  datatype Option<T> = None | Some(value: T)

  /** The outcome of an operation that may throw. */
  datatype Result<T, E> = Ok(value: T) | Err(error: E)

  /** 1 for true, 0 for false: what one row adds to a count. */
  function One(b: bool): nat { if b then 1 else 0 }

  function Max(a: int, b: int): int { if a < b then b else a }

  function Min(a: int, b: int): int { if a < b then a else b }
}

=== FILE: database.dfy ===
/**
 * The two helpers of `backend/config/database.js`: `query`, which runs one statement on the pool, and
 * `transaction`, which runs a callback between BEGIN and COMMIT on one pooled client.
 *
 * The pool and the server are not modelled; the failures they can produce are the fields of a `Pool`
 * value, each `None` when that step succeeds. A transaction records the commands it sends on its client
 * as a trace, and its effects on the store are kept if and only if COMMIT succeeds.
 */
module Database {
  import opened Common
  import Text

  /** An exception reaching the wrapper: a PostgreSQL error with its SQLSTATE, or an `Error` thrown by code. */
  datatype Fault = PgError(code: string) | Thrown(message: string)

  /** Which steps of the pool and the server fail, and with what. */
  datatype Pool = Pool(
    queryErr: Option<Fault>,     // `pool.query` on a stand-alone statement
    connectErr: Option<Fault>,   // `pool.connect`
    beginErr: Option<Fault>,     // 'BEGIN'
    commitErr: Option<Fault>,    // 'COMMIT'
    rollbackErr: Option<Fault>)  // 'ROLLBACK'

  /** A pool on which every step succeeds. */
  const Healthy := Pool(None, None, None, None, None)

  /** A command sent on the transaction's client, or the client's release; `L` labels callback statements. */
  datatype Cmd<L> = Begin | Exec(stmt: L) | Commit | Rollback | Release

  datatype CmdKind = KBegin | KExec | KCommit | KRollback | KRelease

  function Kind<L>(c: Cmd<L>): CmdKind {
    match c
    case Begin => KBegin
    case Exec(_) => KExec
    case Commit => KCommit
    case Rollback => KRollback
    case Release => KRelease
  }

  /** How many commands of kind `k` a trace holds. */
  function Count<L>(trace: seq<Cmd<L>>, k: CmdKind): nat
    decreases |trace|
  {
    if |trace| == 0 then 0 else (if Kind(trace[0]) == k then 1 else 0) + Count(trace[1..], k)
  }

  lemma {:induction false} CountAppend<L>(a: seq<Cmd<L>>, b: seq<Cmd<L>>, k: CmdKind)
    ensures Count(a + b, k) == Count(a, k) + Count(b, k)
    decreases |a|
  {
    if |a| == 0 {
      assert a + b == b;
    } else {
      assert (a + b)[1..] == a[1..] + b;
      CountAppend(a[1..], b, k);
    }
  }

  /** What the callback did: returned a value with the store it built, or threw. Either way, the
      statements it sent on the client. */
  datatype Step<S, R, L> = Returned(value: R, state: S, issued: seq<L>) | Threw(error: Fault, issued: seq<L>)

  function Issued<S, R, L>(st: Step<S, R, L>): seq<L> {
    match st
    case Returned(_, _, issued) => issued
    case Threw(_, issued) => issued
  }

  /** The outcome of `transaction`: the value or the exception it propagates, the store afterwards
      and the commands sent on the client. */
  datatype TxResult<S, R, L> = TxResult(outcome: Result<R, Fault>, state: S, trace: seq<Cmd<L>>)

  function Execs<L>(stmts: seq<L>): (cmds: seq<Cmd<L>>)
    ensures |cmds| == |stmts|
    ensures forall i :: 0 <= i < |stmts| ==> cmds[i] == Exec(stmts[i])
  {
    seq(|stmts|, i requires 0 <= i < |stmts| => Exec(stmts[i]))
  }

  lemma {:induction false} ExecsCount<L>(stmts: seq<L>, k: CmdKind)
    ensures Count(Execs(stmts), k) == (if k == KExec then |stmts| else 0)
    decreases |stmts|
  {
    if |stmts| > 0 {
      assert Execs(stmts)[1..] == Execs(stmts[1..]);
      ExecsCount(stmts[1..], k);
    }
  }

  /** The exception that leaves the catch block: the original one, unless ROLLBACK itself throws. */
  function RolledBack(pool: Pool, e: Fault): Fault {
    if pool.rollbackErr.Some? then pool.rollbackErr.value else e
  }

  /**
   * `transaction(callback)`: acquire a client (no release when that fails, since it happens before the
   * try block), send BEGIN, run the callback, send COMMIT and return its value; when BEGIN, the callback
   * or COMMIT throws, send ROLLBACK and rethrow; release the client in every case after acquisition.
   */
  function Transaction<S, R, L>(pool: Pool, s: S, callback: S -> Step<S, R, L>): (r: TxResult<S, R, L>)
    // the callback's effects survive only on success; a failed transaction leaves the store as it was
    ensures r.outcome.Err? ==> r.state == s
    ensures r.outcome.Ok? ==> callback(s).Returned? && r.outcome.value == callback(s).value
                              && r.state == callback(s).state
    // success is exactly: acquired, BEGIN, callback returned, COMMIT succeeded
    ensures r.outcome.Ok? <==> pool.connectErr.None? && pool.beginErr.None? && callback(s).Returned?
                               && pool.commitErr.None?
    ensures r.outcome.Ok? ==> r.trace == [Begin] + Execs(callback(s).issued) + [Commit, Release]
    // BEGIN comes first and the release last on every path after acquisition
    ensures pool.connectErr.None? ==> |r.trace| >= 3 && r.trace[0] == Begin
                                      && r.trace[|r.trace| - 1] == Release
    ensures pool.connectErr.Some? ==> r.trace == [] && r.outcome == Err(pool.connectErr.value)
    // a failure after acquisition is followed by ROLLBACK, then the same exception is rethrown
    ensures r.outcome.Err? && pool.connectErr.None? ==> r.trace[|r.trace| - 2] == Rollback
    ensures pool.connectErr.None? && pool.beginErr.None? && callback(s).Threw? && pool.rollbackErr.None?
            ==> r.outcome == Err(callback(s).error)
    // the rethrown exception is the one raised by BEGIN, the callback or COMMIT, whichever failed first
    ensures pool.connectErr.None? && pool.rollbackErr.None? && r.outcome.Err?
            ==> r.outcome.error == (if pool.beginErr.Some? then pool.beginErr.value
                                    else if callback(s).Threw? then callback(s).error
                                    else pool.commitErr.value)
    // unless ROLLBACK itself throws, whose exception then replaces the first one
    ensures pool.connectErr.None? && pool.rollbackErr.Some? && r.outcome.Err?
            ==> r.outcome.error == pool.rollbackErr.value
  {
    if pool.connectErr.Some? then TxResult(Err(pool.connectErr.value), s, [])
    else if pool.beginErr.Some? then TxResult(Err(RolledBack(pool, pool.beginErr.value)), s, [Begin, Rollback, Release])
    else
      match callback(s)
      case Threw(e, issued) =>
        TxResult(Err(RolledBack(pool, e)), s, [Begin] + Execs(issued) + [Rollback, Release])
      case Returned(v, s', issued) =>
        if pool.commitErr.Some? then
          TxResult(Err(RolledBack(pool, pool.commitErr.value)), s, [Begin] + Execs(issued) + [Commit, Rollback, Release])
        else TxResult(Ok(v), s', [Begin] + Execs(issued) + [Commit, Release])
  }

  /** Counting over a trace that runs the callback: BEGIN, the callback's statements, then `tail`. */
  lemma CountAroundCallback<L>(issued: seq<L>, tail: seq<Cmd<L>>, k: CmdKind)
    ensures Count([Begin] + Execs(issued) + tail, k)
            == (if k == KBegin then 1 else 0) + (if k == KExec then |issued| else 0) + Count(tail, k)
  {
    CountAppend([Begin] + Execs(issued), tail, k);
    CountAppend([Begin], Execs(issued), k);
    ExecsCount(issued, k);
  }


  /** The counts over the fixed command sequences that close a transaction. */
  lemma CountClosings<L>(k: CmdKind)
    ensures Count<L>([Release], k) == One(k == KRelease)
    ensures Count<L>([Rollback, Release], k) == One(k == KRollback) + One(k == KRelease)
    ensures Count<L>([Commit, Release], k) == One(k == KCommit) + One(k == KRelease)
    ensures Count<L>([Commit, Rollback, Release], k) == One(k == KCommit) + One(k == KRollback) + One(k == KRelease)
    ensures Count<L>([Begin, Rollback, Release], k) == One(k == KBegin) + One(k == KRollback) + One(k == KRelease)
  {
    var r: seq<Cmd<L>> := [Release];
    var rr: seq<Cmd<L>> := [Rollback, Release];
    assert r[1..] == [];
    assert rr[1..] == r;
    assert ([Commit] + r)[1..] == r;
    assert ([Commit] + rr)[1..] == rr;
    assert ([Begin] + rr)[1..] == rr;
    assert [Commit, Release] == [Commit] + r;
    assert [Commit, Rollback, Release] == [Commit] + rr;
    assert [Begin, Rollback, Release] == [Begin] + rr;
  }

  /** The client is released exactly once on every path after acquisition (never when acquisition fails),
      BEGIN is sent once, at most one COMMIT is sent, and ROLLBACK is sent exactly when the transaction fails
      after acquisition. */
  lemma TransactionReleasesOnce<S, R, L>(pool: Pool, s: S, callback: S -> Step<S, R, L>)
    ensures Count(Transaction(pool, s, callback).trace, KRelease) == (if pool.connectErr.Some? then 0 else 1)
    ensures Count(Transaction(pool, s, callback).trace, KBegin) == (if pool.connectErr.Some? then 0 else 1)
    ensures Count(Transaction(pool, s, callback).trace, KRollback)
            == (if pool.connectErr.None? && Transaction(pool, s, callback).outcome.Err? then 1 else 0)
    ensures Count(Transaction(pool, s, callback).trace, KCommit) <= 1
  {
    TransactionCounts(pool, s, callback, KRelease);
    TransactionCounts(pool, s, callback, KBegin);
    TransactionCounts(pool, s, callback, KRollback);
    TransactionCounts(pool, s, callback, KCommit);
  }

  /** How often a transaction sends each kind of command. */
  lemma TransactionCounts<S, R, L>(pool: Pool, s: S, callback: S -> Step<S, R, L>, k: CmdKind)
    ensures var r := Transaction(pool, s, callback);
            Count(r.trace, k)
            == if pool.connectErr.Some? then 0
               else One(k == KBegin) + One(k == KRelease) + One(k == KRollback && r.outcome.Err?)
                    + One(k == KCommit && pool.beginErr.None? && callback(s).Returned?)
                    + (if k == KExec && pool.beginErr.None? then |Issued(callback(s))| else 0)
  {
    var r := Transaction(pool, s, callback);
    CountClosings<L>(k);
    if pool.connectErr.None? && pool.beginErr.None? {
      var issued := Issued(callback(s));
      var tail: seq<Cmd<L>> := if callback(s).Threw? then [Rollback, Release]
                  else if pool.commitErr.Some? then [Commit, Rollback, Release] else [Commit, Release];
      assert r.trace == [Begin] + Execs(issued) + tail;
      CountAroundCallback(issued, tail, k);
    }
  }

  // ---------------------------------------------------------------------------------------------------
  // Integer parameters sent as text

  /** The largest value of PostgreSQL's `integer` type. */
  const Int4Max := 0x7fff_ffff

  /**
   * How PostgreSQL reads a text parameter compared with an `integer` column: an optional sign and
   * decimal digits, within 32 bits; other text raises 22P02 and an out-of-range value 22003.
   */
  function ParseInt4(t: string): (r: Result<int, Fault>)
    ensures r.Ok? ==> -Int4Max - 1 <= r.value <= Int4Max
    ensures r.Err? ==> r.error == PgError("22P02") || r.error == PgError("22003")
  {
    var signed := |t| > 0 && (t[0] == '-' || t[0] == '+');
    var digits := if signed then t[1..] else t;
    if |digits| == 0 || !Text.AllDigits(digits) then Err(PgError("22P02"))
    else
      var v: int := if signed && t[0] == '-' then -(Text.ParseNat(digits) as int) else Text.ParseNat(digits);
      if v < -Int4Max - 1 || Int4Max < v then Err(PgError("22003")) else Ok(v)
  }

  /** The row `WHERE id = $1` can find when the text `t` is bound: the parse error, no row for a
      negative value (every stored id is a natural number), or the key. */
  function RowKey(t: string): Result<Option<nat>, Fault> {
    match ParseInt4(t)
    case Err(e) => Err(e)
    case Ok(v) => Ok(if v < 0 then None else Some(v as nat))
  }

  /** The decimal rendering of an id in range names that id. */
  lemma RowKeyOfRendering(n: nat)
    requires n <= Int4Max
    ensures RowKey(Text.NatToString(n)) == Ok(Some(n))
  {
    Text.NatToStringDigits(n);
    Text.ParseNatToString(n);
    var t := Text.NatToString(n);
    assert '0' <= t[0] <= '9';
  }

  /**
   * `query(text, params)`: the pool's result is returned unchanged on success, and the pool's or the
   * server's exception is rethrown unchanged on failure. `serverResult` is what the statement produces
   * when the pool delivers it.
   */
  function Query<T>(pool: Pool, serverResult: Result<T, Fault>): (r: Result<T, Fault>)
    ensures pool.queryErr.Some? ==> r == Err(pool.queryErr.value)
    ensures pool.queryErr.None? ==> r == serverResult
    ensures r.Ok? ==> r == serverResult
    ensures r.Err? <==> pool.queryErr.Some? || serverResult.Err?
  {
    if pool.queryErr.Some? then Err(pool.queryErr.value) else serverResult
  }
}

=== FILE: fanout.dfy ===
/**
 * Real-time notification: a socket joins the room `tesseramento_<id>` with the id text it sends
 * (backend/server.js), and a status change is emitted to the room named with the id text of the request
 * path. Both sides use the text verbatim, so the rooms match only when the two texts do.
 */
module Fanout {
  import opened Records

  const RoomPrefix := "tesseramento_"

  /** The socket.io room for an application id as written, `tesseramento_${id}`. */
  function RoomName(idText: string): string {
    RoomPrefix + idText
  }

  /** The `status_updated` event; `tessId` is the path parameter as received. */
  datatype Event = StatusUpdated(room: string, tessId: string, newStatus: Status, updatedBy: string, timestamp: Time)

  /** The rooms a socket is in after joining with the given id texts. */
  function RoomsOf(joined: set<string>): set<string> {
    set t | t in joined :: RoomName(t)
  }

  /** The sockets an event reaches: those whose rooms include the event's room. Sockets are keyed by id
      and carry the id texts they joined with. */
  function Recipients(sockets: map<nat, set<string>>, ev: Event): set<nat> {
    set sock | sock in sockets && ev.room in RoomsOf(sockets[sock])
  }

  lemma RoomNameInjective(a: string, b: string)
    ensures RoomName(a) == RoomName(b) <==> a == b
  {
    var n := |RoomPrefix|;
    assert RoomName(a)[n..] == a;
    assert RoomName(b)[n..] == b;
  }

  /** An event addressed to the room of `tessId` reaches exactly the sockets that joined with that text. */
  lemma EventReachesSubscribers(sockets: map<nat, set<string>>, ev: Event)
    requires ev.room == RoomName(ev.tessId)
    ensures forall sock :: sock in Recipients(sockets, ev) <==> sock in sockets && ev.tessId in sockets[sock]
  {
    forall sock | sock in sockets
      ensures ev.room in RoomsOf(sockets[sock]) <==> ev.tessId in sockets[sock]
    {
      if ev.room in RoomsOf(sockets[sock]) {
        var j :| j in sockets[sock] && RoomName(j) == ev.room;
        RoomNameInjective(j, ev.tessId);
      }
    }
  }
}

=== FILE: lifecycle.dfy ===
/**
 * The mutating handlers of `tesseramentiController.js`: `createTesseramento` (find-or-create the applicant,
 * insert the application, audit it), `updateStatus` (field rules, audit, `status_updated` event after
 * commit) and `assignToStaff` (active-staff check, assignment, audit). Each runs its statements as a
 * callback of `Database.Transaction`; a handler returns the HTTP response, the store afterwards and the
 * ordered effects: the commands on the transaction's client and the emitted event.
 */
module Lifecycle {
  import opened Common
  import opened Records
  import opened Database
  import Fanout
  import Text

  /** The statements the callbacks send. */
  datatype Stmt = SelectUserByKeys | UpdateUser | InsertUser | InsertTesseramento | SelectTesseramento
                | UpdateTesseramento | InsertAudit

  /** An externally visible effect, in order. */
  datatype Effect = Db(cmd: Cmd<Stmt>) | Emit(event: Fanout.Event)

  function DbEffects(trace: seq<Cmd<Stmt>>): (e: seq<Effect>)
    ensures |e| == |trace|
    ensures forall i :: 0 <= i < |e| ==> e[i] == Db(trace[i])
  {
    seq(|trace|, i requires 0 <= i < |trace| => Db(trace[i]))
  }

  predicate NoEmit(e: seq<Effect>) {
    forall i :: 0 <= i < |e| ==> !e[i].Emit?
  }

  datatype Outcome<B> = Outcome(response: Response<B>, store: Store, effects: seq<Effect>)

  /** The registration fee, 50.00 euro, in cents. */
  const RegistrationFee := 5000
  const EntityType := "tesseramento"
  const NotFoundMessage := "Tesseramento non trovato"
  /** SQLSTATE of a unique-constraint violation. */
  const UniqueViolation := "23505"

  /** A pool on which the transaction can commit (stand-alone queries may still fail). */
  predicate Commits(pool: Pool) {
    pool.connectErr.None? && pool.beginErr.None? && pool.commitErr.None?
  }

  // ---------------------------------------------------------------------------------------------------
  // createTesseramento

  /** The validated body of `POST /api/tesseramenti`. */
  datatype Submission = Submission(
    email: string, fullName: string, phone: string, birthDate: string, fiscalCode: string,
    address: string, city: string, postalCode: string, paymentMethod: string)

  /** `WHERE email = $1 OR fiscal_code = $2`. */
  predicate MatchesKeys(u: User, d: Submission) {
    u.email == d.email || u.fiscalCode == d.fiscalCode
  }

  predicate KnownApplicant(users: map<nat, User>, d: Submission) {
    exists k :: k in users && MatchesKeys(users[k], d)
  }

  /** The first matching user with id in [from, bound); the result order of the SELECT is taken to be id
      order. */
  function FindUser(users: map<nat, User>, d: Submission, from: nat, bound: nat): (r: Option<nat>)
    ensures r.Some? ==> from <= r.value < bound && r.value in users && MatchesKeys(users[r.value], d)
    ensures r.Some? ==> forall k :: from <= k < r.value && k in users ==> !MatchesKeys(users[k], d)
    ensures r.None? ==> forall k :: from <= k < bound && k in users ==> !MatchesKeys(users[k], d)
    decreases bound - from
  {
    if from >= bound then None
    else if from in users && MatchesKeys(users[from], d) then Some(from)
    else FindUser(users, d, from + 1, bound)
  }

  /** The UPDATE of an existing applicant: profile fields only, never the two keys. */
  function RefreshedUser(u: User, d: Submission, now: Time): User {
    u.(fullName := d.fullName, phone := d.phone, birthDate := d.birthDate, address := d.address,
       city := d.city, postalCode := d.postalCode, updatedAt := now)
  }

  function NewUser(d: Submission, now: Time): User {
    User(d.email, d.fullName, d.phone, d.birthDate, d.fiscalCode, d.address, d.city, d.postalCode, now, now)
  }

  /** The inserted application: pending, fee 50.00, unassigned, every other column at its default. */
  function NewTesseramento(id: nat, userId: nat, paymentMethod: string, now: Time): Tesseramento {
    Tesseramento(id, userId, None, Pending, paymentMethod, RegistrationFee, None, None, None, None, None, None, now, now)
  }

  datatype Submitted = Submitted(tess: Tesseramento, userId: nat)

  /** The users table after the lookup, the applicant's id, the next free user id and the statement sent. */
  datatype Upsert = Upsert(users: map<nat, User>, userId: nat, nextUserId: nat, stmt: Stmt)

  /** Find-or-create: refresh the first user matching by email or fiscal code, else insert a new one. */
  function UpsertUser(users: map<nat, User>, nextUserId: nat, d: Submission, now: Time): Upsert {
    var found := FindUser(users, d, 0, nextUserId);
    if found.Some? then Upsert(users[found.value := RefreshedUser(users[found.value], d, now)], found.value, nextUserId, UpdateUser)
    else Upsert(users[nextUserId := NewUser(d, now)], nextUserId, nextUserId + 1, InsertUser)
  }

  /** The callback of `createTesseramento`. */
  function SubmitBody(st: Store, d: Submission, now: Time): Step<Store, Submitted, Stmt> {
    var up := UpsertUser(st.users, st.nextUserId, d, now);
    var tid := st.nextTessId;
    var t := NewTesseramento(tid, up.userId, d.paymentMethod, now);
    var entry := AuditEntry(tid, None, Created, EntityType, tid, None, Row(t));
    Returned(Submitted(t, up.userId),
             st.(users := up.users, tessere := st.tessere[tid := t], audit := st.audit + [entry],
                 nextUserId := up.nextUserId, nextTessId := tid + 1),
             [SelectUserByKeys, up.stmt, InsertTesseramento, InsertAudit])
  }

  /** The catch block of `createTesseramento`: a unique violation is a conflict, anything else a 500. */
  function CreateFailureStatus(e: Fault): (code: nat)
    ensures code == 409 <==> e == PgError(UniqueViolation)
    ensures code == 409 || code == 500
  {
    if e.PgError? && e.code == UniqueViolation then 409 else 500
  }

  function CreateTesseramento(pool: Pool, s: Store, d: Submission, now: Time): Outcome<Submitted> {
    var tx := Transaction(pool, s, st => SubmitBody(st, d, now));
    Outcome(if tx.outcome.Ok? then Response(201, Some(tx.outcome.value))
            else Response(CreateFailureStatus(tx.outcome.error), None),
            tx.state, DbEffects(tx.trace))
  }

  /** On a valid store, the lookup finds a user exactly when one matches by email or fiscal code. */
  lemma FindUserComplete(s: Store, d: Submission)
    requires UserIdsBelow(s)
    ensures FindUser(s.users, d, 0, s.nextUserId).Some? <==> KnownApplicant(s.users, d)
  {
    if KnownApplicant(s.users, d) {
      var k :| k in s.users && MatchesKeys(s.users[k], d);
      assert k < s.nextUserId;
    }
  }

  /** On a store that can commit, the handler answers 201 with the callback's value and keeps the
      callback's store. */
  lemma SubmitCommits(pool: Pool, s: Store, d: Submission, now: Time)
    requires Commits(pool)
    ensures var o := CreateTesseramento(pool, s, d, now);
      && o.response == Response(201, Some(SubmitBody(s, d, now).value))
      && o.store == SubmitBody(s, d, now).state
  {
  }

  /** The applicant part of a submission: an applicant matching by email or fiscal code gets only the six
      profile fields refreshed and no user is inserted; otherwise exactly one user is inserted. */
  lemma SubmitApplicant(s: Store, d: Submission, now: Time)
    requires UserIdsBelow(s)
    ensures var b := SubmitBody(s, d, now);
      var uid := b.value.userId;
      && (KnownApplicant(s.users, d) ==>
            && b.state.users.Keys == s.users.Keys
            && MatchesKeys(s.users[uid], d)
            && b.state.users[uid] == RefreshedUser(s.users[uid], d, now)
            && b.state.users[uid].email == s.users[uid].email
            && b.state.users[uid].fiscalCode == s.users[uid].fiscalCode)
      && (!KnownApplicant(s.users, d) ==>
            && uid !in s.users
            && b.state.users.Keys == s.users.Keys + {uid}
            && |b.state.users| == |s.users| + 1
            && b.state.users[uid] == NewUser(d, now))
      && (forall k :: k in s.users && k != uid ==> b.state.users[k] == s.users[k])
  {
    UpsertFindsOrInserts(s.users, s.nextUserId, d, now);
    FindUserComplete(s, d);
  }

  lemma UpsertFindsOrInserts(users: map<nat, User>, nextUserId: nat, d: Submission, now: Time)
    requires forall u :: u in users ==> u < nextUserId
    ensures var up := UpsertUser(users, nextUserId, d, now);
      && (FindUser(users, d, 0, nextUserId).Some? ==>
            && up.users.Keys == users.Keys
            && up.userId in users
            && MatchesKeys(users[up.userId], d)
            && up.users[up.userId] == RefreshedUser(users[up.userId], d, now))
      && (FindUser(users, d, 0, nextUserId).None? ==>
            && up.userId !in users
            && up.users.Keys == users.Keys + {up.userId}
            && |up.users| == |users| + 1
            && up.users[up.userId] == NewUser(d, now))
      && (forall k :: k in users && k != up.userId ==> up.users[k] == users[k])
  {
    var found := FindUser(users, d, 0, nextUserId);
    if found.None? {
      assert nextUserId !in users;
      MapInsert(users, nextUserId, NewUser(d, now));
    }
  }

  /** A map gains exactly the new key when a key it lacks is added. */
  lemma MapInsert<V>(m: map<nat, V>, k: nat, v: V)
    requires k !in m
    ensures m[k := v].Keys == m.Keys + {k} && |m[k := v]| == |m| + 1
  {
    assert m[k := v].Keys == m.Keys + {k};
  }


  /** The application part of a submission: exactly one pending application with the 50.00 fee and
      exactly one 'created' audit entry without actor, whose new value is the inserted row. */
  lemma SubmitApplication(s: Store, d: Submission, now: Time)
    requires Valid(s)
    ensures var b := SubmitBody(s, d, now);
      var t := b.value.tess;
      && t.id !in s.tessere
      && b.state.tessere == s.tessere[t.id := t]
      && t.userId == b.value.userId && t.status == Pending && t.paymentAmount == RegistrationFee
      && t.paymentMethod == d.paymentMethod && t.assignedStaffId.None?
      && b.state.audit == s.audit + [AuditEntry(t.id, None, Created, EntityType, t.id, None, Row(t))]
      && b.state.staff == s.staff && b.state.documents == s.documents && b.state.messages == s.messages
  {
    assert s.nextTessId !in s.tessere;
  }

  /** A failed submission changes nothing; it answers 409 exactly for a unique violation. */
  lemma SubmitAtomic(pool: Pool, s: Store, d: Submission, now: Time)
    ensures var o := CreateTesseramento(pool, s, d, now);
      && (o.response.status == 201 <==> Commits(pool))
      && (o.response.status != 201 ==> o.store == s && (o.response.status == 409 || o.response.status == 500))
  {
  }

  /** A submission answers 409 exactly when the exception its transaction rethrows is a unique violation,
      whichever step raised it (acquisition, BEGIN, COMMIT, or ROLLBACK replacing the first one), and a
      409 leaves the store as it was. */
  lemma SubmitConflict(pool: Pool, s: Store, d: Submission, now: Time)
    ensures var o := CreateTesseramento(pool, s, d, now);
      && (pool.connectErr.Some? ==> (o.response.status == 409 <==> pool.connectErr.value == PgError(UniqueViolation)))
      && (pool.connectErr.None? && pool.rollbackErr.None?
          ==> (o.response.status == 409
               <==> pool.beginErr == Some(PgError(UniqueViolation))
                    || (pool.beginErr.None? && pool.commitErr == Some(PgError(UniqueViolation)))))
      && (pool.connectErr.None? && pool.rollbackErr.Some?
          ==> (o.response.status == 409 <==> !Commits(pool) && pool.rollbackErr.value == PgError(UniqueViolation)))
      && (o.response.status == 409 ==> o.store == s)
  {
  }

  // ---------------------------------------------------------------------------------------------------
  // updateStatus

  /** JavaScript truthiness of an optional string. */
  predicate Truthy(o: Option<string>) {
    o.Some? && o.value != ""
  }

  /** The row written by `updateStatus`. */
  function ApplyStatus(cur: Tesseramento, status: Status, notes: Option<string>, reason: Option<string>,
                       now: Time): (t: Tesseramento)
    ensures t.status == status && t.updatedAt == now
    ensures t.rejectionReason == (if status == Rejected then reason else None)
    ensures t.completionDate == (if status == Completed then Some(now) else cur.completionDate)
    ensures t.notes == (if Truthy(notes) then notes else cur.notes)
    // nothing else changes
    ensures t.(status := cur.status, notes := cur.notes, rejectionReason := cur.rejectionReason,
               completionDate := cur.completionDate, updatedAt := cur.updatedAt) == cur
  {
    cur.(status := status,
         notes := if Truthy(notes) then notes else cur.notes,
         rejectionReason := if status == Rejected then reason else None,
         completionDate := if status == Completed then Some(now) else cur.completionDate,
         updatedAt := now)
  }

  /** Whatever the previous row, the written row keeps the per-row rules, and a completion date once set
      is never cleared. */
  lemma StatusChangeKeepsRecordRules(cur: Tesseramento, status: Status, notes: Option<string>,
                                     reason: Option<string>, now: Time)
    ensures RecordInvariant(ApplyStatus(cur, status, notes, reason, now))
    ensures cur.completionDate.Some? ==> ApplyStatus(cur, status, notes, reason, now).completionDate.Some?
    ensures ApplyStatus(cur, status, notes, reason, now).rejectionReason.Some? ==> status == Rejected
  {
  }

  /** The path parameter names an application of the store. */
  predicate Addresses(s: Store, idText: string) {
    RowKey(idText).Ok? && RowKey(idText).value.Some? && RowKey(idText).value.value in s.tessere
  }

  /** The callback of `updateStatus`: read the row inside the transaction (the id text that is no integer
      makes the SELECT throw), throw when it is missing, otherwise write it and log the status change. */
  function StatusBody(st: Store, idText: string, status: Status, notes: Option<string>, reason: Option<string>,
                      actorId: nat, now: Time): Step<Store, Tesseramento, Stmt>
  {
    if RowKey(idText).Err? then Threw(RowKey(idText).error, [SelectTesseramento])
    else if !Addresses(st, idText) then Threw(Thrown(NotFoundMessage), [SelectTesseramento])
    else
      var id := RowKey(idText).value.value;
      var cur := st.tessere[id];
      var upd := ApplyStatus(cur, status, notes, reason, now);
      var entry := AuditEntry(id, Some(actorId), StatusChanged, EntityType, id,
                              Some(StatusOnly(cur.status)), StatusChange(status, notes, reason));
      Returned(upd, st.(tessere := st.tessere[id := upd], audit := st.audit + [entry]),
               [SelectTesseramento, UpdateTesseramento, InsertAudit])
  }

  /** The event carries the path parameter verbatim, in the room name and as `tesseramento_id`. */
  function StatusEvent(idText: string, status: Status, actor: Staff, now: Time): Fanout.Event {
    Fanout.StatusUpdated(Fanout.RoomName(idText), idText, status, actor.fullName, now)
  }

  /** `updateStatus`: any exception, a missing application included, is a 500; the event is emitted only
      once the transaction has returned. */
  function UpdateStatus(pool: Pool, s: Store, idText: string, status: Status, notes: Option<string>,
                        reason: Option<string>, actor: Staff, now: Time): Outcome<Tesseramento>
  {
    var tx := Transaction(pool, s, st => StatusBody(st, idText, status, notes, reason, actor.id, now));
    if tx.outcome.Ok? then
      Outcome(Response(200, Some(tx.outcome.value)), tx.state,
              DbEffects(tx.trace) + [Emit(StatusEvent(idText, status, actor, now))])
    else Outcome(Response(500, None), tx.state, DbEffects(tx.trace))
  }

  /** A status change that commits: 200, the row rewritten by the field rules, one 'status_changed' entry
      whose old value is the status read in the same transaction and whose new value holds the values as
      supplied, and then the event to the application's room. */
  lemma UpdateStatusSucceeds(pool: Pool, s: Store, idText: string, id: nat, status: Status,
                             notes: Option<string>, reason: Option<string>, actor: Staff, now: Time)
    requires Commits(pool) && RowKey(idText) == Ok(Some(id)) && id in s.tessere
    ensures var o := UpdateStatus(pool, s, idText, status, notes, reason, actor, now);
      var upd := ApplyStatus(s.tessere[id], status, notes, reason, now);
      && o.response == Response(200, Some(upd))
      && o.store == s.(tessere := s.tessere[id := upd],
                       audit := s.audit + [AuditEntry(id, Some(actor.id), StatusChanged, EntityType, id,
                                                      Some(StatusOnly(s.tessere[id].status)),
                                                      StatusChange(status, notes, reason))])
      && o.effects == DbEffects([Begin, Exec(SelectTesseramento), Exec(UpdateTesseramento), Exec(InsertAudit),
                                 Commit, Release])
                      + [Emit(Fanout.StatusUpdated(Fanout.RoomName(idText), idText, status, actor.fullName, now))]
  {
    assert Execs([SelectTesseramento, UpdateTesseramento, InsertAudit])
        == [Exec(SelectTesseramento), Exec(UpdateTesseramento), Exec(InsertAudit)];
  }

  /** A missing application, or an id text that is no integer: the callback throws, the transaction rolls
      back, the answer is 500 (not 404), nothing is written and no event is emitted. */
  lemma UpdateStatusMissing(pool: Pool, s: Store, idText: string, status: Status, notes: Option<string>,
                            reason: Option<string>, actor: Staff, now: Time)
    requires !Addresses(s, idText)
    ensures var o := UpdateStatus(pool, s, idText, status, notes, reason, actor, now);
      && o.response.status == 500 && o.store == s && NoEmit(o.effects)
      && (pool.connectErr.None? ==> o.effects[|o.effects| - 2] == Db(Rollback))
  {
  }

  /** The event follows the commit: it is emitted exactly on success, as the last effect, after COMMIT
      and the release of the client. */
  lemma EventOnlyAfterCommit(pool: Pool, s: Store, idText: string, status: Status, notes: Option<string>,
                             reason: Option<string>, actor: Staff, now: Time)
    ensures var o := UpdateStatus(pool, s, idText, status, notes, reason, actor, now);
      && (o.response.status == 200 ==>
            && |o.effects| >= 3
            && o.effects[|o.effects| - 1] == Emit(StatusEvent(idText, status, actor, now))
            && o.effects[|o.effects| - 3] == Db(Commit)
            && NoEmit(o.effects[..|o.effects| - 1]))
      && (o.response.status != 200 ==> NoEmit(o.effects) && o.store == s)
  {
    var o := UpdateStatus(pool, s, idText, status, notes, reason, actor, now);
    if o.response.status == 200 {
      var tx := Transaction(pool, s, st => StatusBody(st, idText, status, notes, reason, actor.id, now));
      assert o.effects[..|o.effects| - 1] == DbEffects(tx.trace);
    }
  }

  /** "07" and "7" both address application 7. */
  lemma PaddedKey()
    ensures RowKey("07") == Ok(Some(7)) && RowKey("7") == Ok(Some(7))
  {
    assert Text.ParseNat("0") == 0;
    assert Text.ParseNat("07"[..1]) == 0;
  }

  /** PostgreSQL reads the path parameter `07` as the integer 7, but the room name keeps the text:
      `PUT /api/tesseramenti/07/status` changes application 7 exactly as `.../7/status` does, yet its
      event misses every socket that joined with 7. */
  lemma PaddedIdMissesSubscribers(pool: Pool, s: Store, status: Status, notes: Option<string>,
                                  reason: Option<string>, actor: Staff, now: Time, sockets: map<nat, set<string>>)
    requires Commits(pool) && 7 in s.tessere
    ensures var padded := UpdateStatus(pool, s, "07", status, notes, reason, actor, now);
            var plain := UpdateStatus(pool, s, "7", status, notes, reason, actor, now);
            && padded.response == plain.response && padded.response.status == 200
            && padded.store == plain.store
            && padded.effects[|padded.effects| - 1] == Emit(StatusEvent("07", status, actor, now))
            && forall sock :: sock in sockets && sockets[sock] == {"7"} ==>
                 sock !in Fanout.Recipients(sockets, StatusEvent("07", status, actor, now))
  {
    PaddedKey();
    UpdateStatusSucceeds(pool, s, "07", 7, status, notes, reason, actor, now);
    UpdateStatusSucceeds(pool, s, "7", 7, status, notes, reason, actor, now);
    Fanout.RoomNameInjective("07", "7");
  }

  // ---------------------------------------------------------------------------------------------------
  // assignToStaff

  /** `SELECT ... FROM staff WHERE id = $1 AND is_active = true`. */
  function ActiveStaff(staff: map<nat, Staff>, id: nat): (r: Option<Staff>)
    ensures r.Some? <==> id in staff && staff[id].isActive
  {
    if id in staff && staff[id].isActive then Some(staff[id]) else None
  }

  /** What `staff_id` binds: NULL when the body has none, otherwise the row its text names. */
  function StaffKey(staffId: Option<string>): Result<Option<nat>, Fault> {
    if staffId.None? then Ok(None) else RowKey(staffId.value)
  }

  /** The staff check: the key of the active staff row found, none (NULL and negative values match no
      row), or the error of a `staff_id` that is no integer. */
  function StaffCheck(staff: map<nat, Staff>, staffId: Option<string>): (r: Result<Option<nat>, Fault>)
    ensures r.Ok? && r.value.Some? ==> r.value.value in staff && staff[r.value.value].isActive
  {
    match StaffKey(staffId)
    case Err(e) => Err(e)
    case Ok(key) => Ok(if key.Some? && ActiveStaff(staff, key.value).Some? then key else None)
  }

  /** The callback of `assignToStaff`: the UPDATE ... RETURNING finds no row for a missing application. */
  function AssignBody(st: Store, idText: string, staffId: nat, actorId: nat, now: Time): Step<Store, Tesseramento, Stmt> {
    if RowKey(idText).Err? then Threw(RowKey(idText).error, [UpdateTesseramento])
    else if !Addresses(st, idText) then Threw(Thrown(NotFoundMessage), [UpdateTesseramento])
    else
      var id := RowKey(idText).value.value;
      var upd := st.tessere[id].(assignedStaffId := Some(staffId), updatedAt := now);
      var entry := AuditEntry(id, Some(actorId), Assigned, EntityType, id, None, Assignment(staffId, actorId));
      Returned(upd, st.(tessere := st.tessere[id := upd], audit := st.audit + [entry]),
               [UpdateTesseramento, InsertAudit])
  }

  /** `assignToStaff`: the staff check runs as a stand-alone query before any transaction; `staffId` is
      the unvalidated body field, `None` when it is missing or null. */
  function AssignToStaff(pool: Pool, s: Store, idText: string, staffId: Option<string>, actor: Staff,
                         now: Time): Outcome<Tesseramento> {
    var check := Query(pool, StaffCheck(s.staff, staffId));
    if check.Err? then Outcome(Response(500, None), s, [])
    else if check.value.None? then Outcome(Response(400, None), s, [])
    else
      var tx := Transaction(pool, s, st => AssignBody(st, idText, check.value.value, actor.id, now));
      if tx.outcome.Ok? then Outcome(Response(200, Some(tx.outcome.value)), tx.state, DbEffects(tx.trace))
      else Outcome(Response(500, None), tx.state, DbEffects(tx.trace))
  }

  /** A `staff_id` that is missing, or names no active staff member, is a 400 before any transaction; one
      that is no integer makes the check throw, a 500. Neither sends a command or changes anything. */
  lemma AssignRejectsInvalidStaff(pool: Pool, s: Store, idText: string, staffId: Option<string>, actor: Staff,
                                  now: Time)
    requires pool.queryErr.None?
    ensures var o := AssignToStaff(pool, s, idText, staffId, actor, now);
      var key := StaffKey(staffId);
      && (o.response.status == 400 <==>
            key.Ok? && (key.value.None? || key.value.value !in s.staff || !s.staff[key.value.value].isActive))
      && (key.Err? ==> o.response.status == 500)
      && (o.response.status == 400 || key.Err? ==> o.store == s && o.effects == [])
  {
  }

  /** A missing application rolls back: 500 and nothing written. */
  lemma AssignMissingApplication(pool: Pool, s: Store, idText: string, staffText: string, staffId: nat,
                                 actor: Staff, now: Time)
    requires pool.queryErr.None? && RowKey(staffText) == Ok(Some(staffId))
    requires staffId in s.staff && s.staff[staffId].isActive && !Addresses(s, idText)
    ensures var o := AssignToStaff(pool, s, idText, Some(staffText), actor, now);
      o.response.status == 500 && o.store == s
      && (pool.connectErr.None? ==> o.effects[|o.effects| - 2] == Db(Rollback))
  {
  }

  /** A committed assignment changes only the assigned staff id and the update time of that application
      and adds one 'assigned' entry recording target and actor. */
  lemma AssignSucceeds(pool: Pool, s: Store, idText: string, id: nat, staffText: string, staffId: nat,
                       actor: Staff, now: Time)
    requires pool.queryErr.None? && Commits(pool)
    requires RowKey(staffText) == Ok(Some(staffId)) && staffId in s.staff && s.staff[staffId].isActive
    requires RowKey(idText) == Ok(Some(id)) && id in s.tessere
    ensures var o := AssignToStaff(pool, s, idText, Some(staffText), actor, now);
      var upd := o.store.tessere[id];
      && o.response == Response(200, Some(upd))
      && upd.assignedStaffId == Some(staffId) && upd.updatedAt == now
      && upd.(assignedStaffId := s.tessere[id].assignedStaffId, updatedAt := s.tessere[id].updatedAt) == s.tessere[id]
      && o.store == s.(tessere := s.tessere[id := upd],
                       audit := s.audit + [AuditEntry(id, Some(actor.id), Assigned, EntityType, id, None,
                                                      Assignment(staffId, actor.id))])
  {
  }

  // ---------------------------------------------------------------------------------------------------
  // Audit and consistency across the handlers

  /** A handler either answers `ok` having appended exactly one entry to the log, or changes nothing. */
  predicate OneEntryOrNothing<B>(s: Store, o: Outcome<B>, ok: nat) {
    && (o.response.status == ok ==> |o.store.audit| == |s.audit| + 1 && o.store.audit[..|s.audit|] == s.audit)
    && (o.response.status != ok ==> o.store == s)
  }

  /** Every successful mutation writes exactly one audit entry in the same transaction, and every failure
      leaves store and log untouched. */
  lemma AuditPerMutation(pool: Pool, s: Store, d: Submission, idText: string, status: Status,
                         notes: Option<string>, reason: Option<string>, staffId: Option<string>, actor: Staff,
                         now: Time)
    ensures OneEntryOrNothing(s, CreateTesseramento(pool, s, d, now), 201)
    ensures OneEntryOrNothing(s, UpdateStatus(pool, s, idText, status, notes, reason, actor, now), 200)
    ensures OneEntryOrNothing(s, AssignToStaff(pool, s, idText, staffId, actor, now), 200)
  {
    SubmitOneEntry(pool, s, d, now);
    UpdateStatusOneEntry(pool, s, idText, status, notes, reason, actor, now);
    AssignOneEntry(pool, s, idText, staffId, actor, now);
  }

  lemma SubmitOneEntry(pool: Pool, s: Store, d: Submission, now: Time)
    ensures OneEntryOrNothing(s, CreateTesseramento(pool, s, d, now), 201)
  {
    var o := CreateTesseramento(pool, s, d, now);
    if o.response.status == 201 {
      assert o.store.audit == SubmitBody(s, d, now).state.audit;
      assert o.store.audit[..|s.audit|] == s.audit;
    }
  }

  lemma UpdateStatusOneEntry(pool: Pool, s: Store, idText: string, status: Status, notes: Option<string>,
                             reason: Option<string>, actor: Staff, now: Time)
    ensures OneEntryOrNothing(s, UpdateStatus(pool, s, idText, status, notes, reason, actor, now), 200)
  {
    var o := UpdateStatus(pool, s, idText, status, notes, reason, actor, now);
    if o.response.status == 200 {
      assert o.store.audit == StatusBody(s, idText, status, notes, reason, actor.id, now).state.audit;
      assert o.store.audit[..|s.audit|] == s.audit;
    }
  }

  lemma AssignOneEntry(pool: Pool, s: Store, idText: string, staffId: Option<string>, actor: Staff, now: Time)
    ensures OneEntryOrNothing(s, AssignToStaff(pool, s, idText, staffId, actor, now), 200)
  {
    var o := AssignToStaff(pool, s, idText, staffId, actor, now);
    if o.response.status == 200 {
      assert o.store.audit == AssignBody(s, idText, StaffCheck(s.staff, staffId).value.value, actor.id, now).state.audit;
      assert o.store.audit[..|s.audit|] == s.audit;
    }
  }

  /** Find-or-create never gives two users the same email or fiscal code; this is why, without
      concurrent submissions, the unique violation answered with 409 cannot arise. */
  lemma UpsertKeepsKeysUnique(users: map<nat, User>, nextUserId: nat, d: Submission, now: Time)
    requires forall u :: u in users ==> u < nextUserId
    requires UniqueUserKeys(users)
    ensures UniqueUserKeys(UpsertUser(users, nextUserId, d, now).users)
    ensures var up := UpsertUser(users, nextUserId, d, now);
            forall u :: u in up.users ==> u < up.nextUserId
  {
    var found := FindUser(users, d, 0, nextUserId);
    if found.Some? {
      KeysUniqueAfterRefresh(users, found.value, RefreshedUser(users[found.value], d, now));
    } else {
      KeysUniqueAfterInsert(users, nextUserId, NewUser(d, now));
    }
  }

  /** Rewriting a user without touching its email and fiscal code keeps both keys unique. */
  lemma KeysUniqueAfterRefresh(users: map<nat, User>, k: nat, u: User)
    requires UniqueUserKeys(users) && k in users
    requires u.email == users[k].email && u.fiscalCode == users[k].fiscalCode
    ensures UniqueUserKeys(users[k := u])
  {
  }

  /** Adding a user under a fresh id whose email and fiscal code no stored user has keeps both keys unique. */
  lemma KeysUniqueAfterInsert(users: map<nat, User>, k: nat, u: User)
    requires UniqueUserKeys(users) && k !in users
    requires forall j :: j in users ==> users[j].email != u.email && users[j].fiscalCode != u.fiscalCode
    ensures UniqueUserKeys(users[k := u])
  {
  }


  lemma SubmitKeepsValid(pool: Pool, s: Store, d: Submission, now: Time)
    requires Valid(s)
    ensures Valid(CreateTesseramento(pool, s, d, now).store)
  {
    SubmitBodyKeepsValid(s, d, now);
    SubmitAtomic(pool, s, d, now);
    if Commits(pool) {
      SubmitCommits(pool, s, d, now);
    }
  }

  /** The submission callback's store is consistent whenever the store it starts from is. */
  lemma SubmitBodyKeepsValid(s: Store, d: Submission, now: Time)
    requires Valid(s)
    ensures Valid(SubmitBody(s, d, now).state)
  {
    var b := SubmitBody(s, d, now);
    var up := UpsertUser(s.users, s.nextUserId, d, now);
    UpsertKeepsKeysUnique(s.users, s.nextUserId, d, now);
    UpsertFindsOrInserts(s.users, s.nextUserId, d, now);
    var t := b.value.tess;
    assert b.state.users == up.users && t.userId == up.userId && up.userId in up.users;
    InsertKeepsValid(s, b.state, t, AuditEntry(t.id, None, Created, EntityType, t.id, None, Row(t)));
  }

  /** Adding one fresh, unassigned, consistent application with its log entry, while users only gain
      ids and keep their keys unique, keeps the store consistent. */
  lemma InsertKeepsValid(s: Store, n: Store, t: Tesseramento, entry: AuditEntry)
    requires Valid(s)
    requires t.id == s.nextTessId && n.nextTessId == t.id + 1 && n.tessere == s.tessere[t.id := t]
    requires t.userId in n.users && t.assignedStaffId.None? && RecordInvariant(t)
    requires s.users.Keys <= n.users.Keys && UserIdsBelow(n) && UniqueUserKeys(n.users) && n.staff == s.staff
    requires entry.tessId == t.id && n.audit == s.audit + [entry]
    ensures Valid(n)
  {
    forall k | k in n.tessere ensures RowValid(n, k) {
      if k != t.id {
        assert RowValid(s, k);
      }
    }
    forall i | 0 <= i < |n.audit| ensures n.audit[i].tessId in n.tessere {
      if i < |s.audit| {
        assert n.audit[i] == s.audit[i];
      }
    }
  }



  lemma UpdateStatusKeepsValid(pool: Pool, s: Store, idText: string, status: Status, notes: Option<string>,
                               reason: Option<string>, actor: Staff, now: Time)
    requires Valid(s)
    ensures Valid(UpdateStatus(pool, s, idText, status, notes, reason, actor, now).store)
  {
    var o := UpdateStatus(pool, s, idText, status, notes, reason, actor, now);
    if o.response.status == 200 {
      var n := o.store;
      forall k | k in n.tessere ensures RowValid(n, k) {
        assert RowValid(s, k);
      }
      forall i | 0 <= i < |n.audit| ensures n.audit[i].tessId in n.tessere {
        if i < |s.audit| {
          assert n.audit[i] == s.audit[i];
        }
      }
    }
  }

  lemma AssignKeepsValid(pool: Pool, s: Store, idText: string, staffId: Option<string>, actor: Staff, now: Time)
    requires Valid(s)
    ensures Valid(AssignToStaff(pool, s, idText, staffId, actor, now).store)
  {
    var o := AssignToStaff(pool, s, idText, staffId, actor, now);
    if o.response.status == 200 {
      var n := o.store;
      assert StaffCheck(s.staff, staffId).value.value in s.staff;
      forall k | k in n.tessere ensures RowValid(n, k) {
        assert RowValid(s, k);
      }
      forall i | 0 <= i < |n.audit| ensures n.audit[i].tessId in n.tessere {
        if i < |s.audit| {
          assert n.audit[i] == s.audit[i];
        }
      }
    }
  }
}

=== FILE: listing.dfy ===
/**
 * The read side of `tesseramentiController.js`: `getTesseramenti` (filters, sort, pagination and per-row
 * counts) and `getTesseramento` (one application with its documents).
 *
 * A query is kept as structure rather than SQL text: the WHERE conditions with their placeholder numbers,
 * the ORDER BY choice and the LIMIT/OFFSET placeholders. `RunPage` and `RunCount` give PostgreSQL's
 * meaning to such a query and its bound parameters, including the refusal of a parameter count that does
 * not match the placeholders. ORDER BY sorts by a `Ranking`, the database's comparison of a column's
 * values given as a parameter.
 */
module Listing {
  import opened Common
  import opened Records
  import opened Database
  import Text
  import Ordering

  /** The query string of `GET /api/tesseramenti`. An absent or empty parameter is `None` (or "" for the
      strings); `assignedStaffId` is already a number. */
  datatype ListQuery = ListQuery(
    status: Option<string>, assignedStaffId: Option<nat>, paymentStatus: Option<string>,
    search: Option<string>, page: int, limit: int, sortBy: string, sortOrder: string)

  /** The defaults of the destructuring: page 1, 20 per page, newest first. */
  const DefaultPage := 1
  const DefaultLimit := 20
  const DefaultSortBy := "created_at"
  const DefaultSortOrder := "DESC"

  /** The query string as parsed: an absent parameter is `None`; `page` and `limit` are the numbers the
      arithmetic coerces them to. */
  datatype RawQuery = RawQuery(
    status: Option<string>, assignedStaffId: Option<nat>, paymentStatus: Option<string>,
    search: Option<string>, page: Option<int>, limit: Option<int>, sortBy: Option<string>,
    sortOrder: Option<string>)

  /** A destructuring default: it replaces only an absent value. */
  function OrDefault<T>(o: Option<T>, default: T): T {
    if o.Some? then o.value else default
  }

  /** The handler's destructuring of `req.query`: the filters are taken as given, and an absent page,
      limit, sort column or sort order takes its default. */
  function Destructure(raw: RawQuery): (q: ListQuery)
    ensures q.status == raw.status && q.assignedStaffId == raw.assignedStaffId
    ensures q.paymentStatus == raw.paymentStatus && q.search == raw.search
    ensures raw.page.None? ==> q.page == DefaultPage
    ensures raw.limit.None? ==> q.limit == DefaultLimit
    ensures raw.sortBy.None? ==> q.sortBy == DefaultSortBy
    ensures raw.sortOrder.None? ==> q.sortOrder == DefaultSortOrder
    ensures raw.page.Some? ==> q.page == raw.page.value
    ensures raw.limit.Some? ==> q.limit == raw.limit.value
    ensures raw.sortBy.Some? ==> q.sortBy == raw.sortBy.value
    ensures raw.sortOrder.Some? ==> q.sortOrder == raw.sortOrder.value
  {
    ListQuery(raw.status, raw.assignedStaffId, raw.paymentStatus, raw.search,
              OrDefault(raw.page, DefaultPage), OrDefault(raw.limit, DefaultLimit),
              OrDefault(raw.sortBy, DefaultSortBy), OrDefault(raw.sortOrder, DefaultSortOrder))
  }

  /** A request without any query parameter. */
  const NoParameters := RawQuery(None, None, None, None, None, None, None, None)

  /** JavaScript truthiness of a query-string value. */
  predicate Present(o: Option<string>) {
    o.Some? && o.value != ""
  }

  /** How many filters the query sets. */
  function PresentFilters(q: ListQuery): nat {
    One(Present(q.status)) + One(q.assignedStaffId.Some?) + One(Present(q.paymentStatus)) + One(Present(q.search))
  }

  // ---------------------------------------------------------------------------------------------------
  // WHERE clause

  /** The column a condition tests; `SearchColumns` is the ILIKE over full_name, email and fiscal_code. */
  datatype Column = StatusColumn | StaffColumn | PaymentColumn | SearchColumns

  /** One condition `<column> = $placeholder` (or the three-way ILIKE sharing one placeholder). */
  datatype Cond = Cond(column: Column, placeholder: nat)

  /** A bound parameter value. */
  datatype Param = Str(s: string) | Num(n: int)

  /** The conditions, the parameters and `paramIndex` while the WHERE clause is built. */
  datatype Filter = Filter(conds: seq<Cond>, params: seq<Param>, nextIndex: nat)

  /** Placeholders are numbered from 1 in the order the conditions were added, one parameter each. */
  predicate Consecutive(f: Filter) {
    && |f.conds| == |f.params|
    && f.nextIndex == |f.params| + 1
    && forall i :: 0 <= i < |f.conds| ==> f.conds[i].placeholder == i + 1
  }

  predicate HasColumn(conds: seq<Cond>, c: Column) {
    exists i :: 0 <= i < |conds| && conds[i].column == c
  }

  /** Push one condition with the next placeholder and its parameter, then advance the index. */
  function Push(f: Filter, c: Column, v: Param): (g: Filter)
    requires Consecutive(f)
    ensures Consecutive(g)
    ensures g.conds == f.conds + [Cond(c, f.nextIndex)] && g.params == f.params + [v]
  {
    Filter(f.conds + [Cond(c, f.nextIndex)], f.params + [v], f.nextIndex + 1)
  }

  lemma HasColumnPush(f: Filter, c: Column, v: Param, d: Column)
    requires Consecutive(f)
    ensures HasColumn(Push(f, c, v).conds, d) <==> HasColumn(f.conds, d) || c == d
  {
    var g := Push(f, c, v);
    if HasColumn(g.conds, d) && c != d {
      var i :| 0 <= i < |g.conds| && g.conds[i].column == d;
      assert i < |f.conds| && f.conds[i] == g.conds[i];
    }
    if c == d {
      assert g.conds[|f.conds|].column == d;
    }
    if HasColumn(f.conds, d) {
      var i :| 0 <= i < |f.conds| && f.conds[i].column == d;
      assert g.conds[i] == f.conds[i];
    }
  }

  /** The ILIKE pattern bound for `search`. */
  function SearchPattern(search: string): string {
    "%" + search + "%"
  }

  /** The clause after the status filter, after the staff filter, after the payment filter and after
      the search filter. */
  function AfterStatus(q: ListQuery): (f: Filter)
    ensures Consecutive(f)
  {
    var f0 := Filter([], [], 1);
    if Present(q.status) then Push(f0, StatusColumn, Str(q.status.value)) else f0
  }

  function AfterStaff(q: ListQuery): (f: Filter)
    ensures Consecutive(f)
  {
    var f := AfterStatus(q);
    if q.assignedStaffId.Some? then Push(f, StaffColumn, Num(q.assignedStaffId.value)) else f
  }

  function AfterPayment(q: ListQuery): (f: Filter)
    ensures Consecutive(f)
  {
    var f := AfterStaff(q);
    if Present(q.paymentStatus) then Push(f, PaymentColumn, Str(q.paymentStatus.value)) else f
  }

  /** The WHERE clause of `getTesseramenti`: status, assigned staff, payment status and search, in that
      order, each when present. */
  function BuildFilter(q: ListQuery): (f: Filter)
    ensures Consecutive(f)
    ensures |f.conds| == PresentFilters(q)
    ensures HasColumn(f.conds, StatusColumn) <==> Present(q.status)
    ensures HasColumn(f.conds, StaffColumn) <==> q.assignedStaffId.Some?
    ensures HasColumn(f.conds, PaymentColumn) <==> Present(q.paymentStatus)
    ensures HasColumn(f.conds, SearchColumns) <==> Present(q.search)
  {
    var f3 := AfterPayment(q);
    var f4 := if Present(q.search) then Push(f3, SearchColumns, Str(SearchPattern(q.search.value))) else f3;
    BuildFilterColumns(q, f4);
    f4
  }

  lemma BuildFilterColumns(q: ListQuery, f4: Filter)
    requires f4 == if Present(q.search) then Push(AfterPayment(q), SearchColumns, Str(SearchPattern(q.search.value)))
                   else AfterPayment(q)
    ensures |f4.conds| == PresentFilters(q)
    ensures HasColumn(f4.conds, StatusColumn) <==> Present(q.status)
    ensures HasColumn(f4.conds, StaffColumn) <==> q.assignedStaffId.Some?
    ensures HasColumn(f4.conds, PaymentColumn) <==> Present(q.paymentStatus)
    ensures HasColumn(f4.conds, SearchColumns) <==> Present(q.search)
  {
    var f0 := Filter([], [], 1);
    var f1, f2, f3 := AfterStatus(q), AfterStaff(q), AfterPayment(q);
    forall d: Column
      ensures HasColumn(f4.conds, d) <==>
        || (d == StatusColumn && Present(q.status)) || (d == StaffColumn && q.assignedStaffId.Some?)
        || (d == PaymentColumn && Present(q.paymentStatus)) || (d == SearchColumns && Present(q.search))
    {
      assert !HasColumn(f0.conds, d);
      if Present(q.status) { HasColumnPush(f0, StatusColumn, Str(q.status.value), d); }
      if q.assignedStaffId.Some? { HasColumnPush(f1, StaffColumn, Num(q.assignedStaffId.value), d); }
      if Present(q.paymentStatus) { HasColumnPush(f2, PaymentColumn, Str(q.paymentStatus.value), d); }
      if Present(q.search) { HasColumnPush(f3, SearchColumns, Str(SearchPattern(q.search.value)), d); }
    }
  }

  /** A joined row of `tesseramenti t JOIN users u LEFT JOIN staff s`. */
  datatype Joined = Joined(tess: Tesseramento, user: User, staff: Option<Staff>)

  /** `field ILIKE pattern` for a pattern of the form `%text%`: a case-insensitive substring test. */
  predicate ILike(field: string, pattern: string) {
    && |pattern| >= 2 && pattern[0] == '%' && pattern[|pattern| - 1] == '%'
    && Text.ContainsIgnoringCase(field, pattern[1..|pattern| - 1])
  }

  lemma ILikeSearchPattern(field: string, search: string)
    ensures ILike(field, SearchPattern(search)) <==> Text.ContainsIgnoringCase(field, search)
  {
    var p := SearchPattern(search);
    assert p[1..|p| - 1] == search;
  }

  /** What one condition means for a row, given the bound parameters. */
  predicate Holds(row: Joined, c: Cond, params: seq<Param>) {
    && 1 <= c.placeholder <= |params|
    && var v := params[c.placeholder - 1];
       match c.column
       case StatusColumn => v.Str? && StatusName(row.tess.status) == v.s
       case StaffColumn => v.Num? && row.tess.assignedStaffId.Some? && row.tess.assignedStaffId.value == v.n
       case PaymentColumn => v.Str? && row.tess.paymentStatus == Some(v.s)
       case SearchColumns =>
         v.Str? && (ILike(row.user.fullName, v.s) || ILike(row.user.email, v.s) || ILike(row.user.fiscalCode, v.s))
  }

  /** The conditions joined with AND. */
  predicate HoldsAll(row: Joined, conds: seq<Cond>, params: seq<Param>) {
    forall i :: 0 <= i < |conds| ==> Holds(row, conds[i], params)
  }

  /** The filters of a query, stated directly: each present filter must hold, and the search text must
      occur, ignoring case, in the name, the email or the fiscal code. */
  predicate Selected(q: ListQuery, row: Joined) {
    StatusSelected(q, row) && StaffSelected(q, row) && PaymentSelected(q, row) && SearchSelected(q, row)
  }

  predicate StatusSelected(q: ListQuery, row: Joined) {
    Present(q.status) ==> StatusName(row.tess.status) == q.status.value
  }

  predicate StaffSelected(q: ListQuery, row: Joined) {
    q.assignedStaffId.Some? ==> row.tess.assignedStaffId == q.assignedStaffId
  }

  predicate PaymentSelected(q: ListQuery, row: Joined) {
    Present(q.paymentStatus) ==> row.tess.paymentStatus == q.paymentStatus
  }

  predicate SearchSelected(q: ListQuery, row: Joined) {
    Present(q.search) ==>
      || Text.ContainsIgnoringCase(row.user.fullName, q.search.value)
      || Text.ContainsIgnoringCase(row.user.email, q.search.value)
      || Text.ContainsIgnoringCase(row.user.fiscalCode, q.search.value)
  }

  /** Adding a condition adds exactly its test to the conjunction. */
  lemma PushHolds(row: Joined, f: Filter, c: Column, v: Param)
    requires Consecutive(f)
    ensures HoldsAll(row, Push(f, c, v).conds, Push(f, c, v).params) <==>
            HoldsAll(row, f.conds, f.params) && Holds(row, Cond(c, f.nextIndex), Push(f, c, v).params)
  {
    var g := Push(f, c, v);
    forall i | 0 <= i < |f.conds|
      ensures Holds(row, f.conds[i], f.params) <==> Holds(row, g.conds[i], g.params)
    {
      assert g.conds[i] == f.conds[i];
      assert g.params[f.conds[i].placeholder - 1] == f.params[f.conds[i].placeholder - 1];
    }
    assert g.conds[|f.conds|] == Cond(c, f.nextIndex);
    if HoldsAll(row, f.conds, f.params) && Holds(row, Cond(c, f.nextIndex), g.params) {
      forall i | 0 <= i < |g.conds| ensures Holds(row, g.conds[i], g.params) {
        if i < |f.conds| {
          assert Holds(row, f.conds[i], f.params);
        }
      }
    }
  }

  lemma HoldsAfterStatus(q: ListQuery, row: Joined)
    ensures HoldsAll(row, AfterStatus(q).conds, AfterStatus(q).params) <==> StatusSelected(q, row)
  {
    if Present(q.status) { PushHolds(row, Filter([], [], 1), StatusColumn, Str(q.status.value)); }
  }

  lemma HoldsAfterStaff(q: ListQuery, row: Joined)
    ensures HoldsAll(row, AfterStaff(q).conds, AfterStaff(q).params) <==>
            StatusSelected(q, row) && StaffSelected(q, row)
  {
    HoldsAfterStatus(q, row);
    if q.assignedStaffId.Some? { PushHolds(row, AfterStatus(q), StaffColumn, Num(q.assignedStaffId.value)); }
  }

  lemma HoldsAfterPayment(q: ListQuery, row: Joined)
    ensures HoldsAll(row, AfterPayment(q).conds, AfterPayment(q).params) <==>
            StatusSelected(q, row) && StaffSelected(q, row) && PaymentSelected(q, row)
  {
    HoldsAfterStaff(q, row);
    if Present(q.paymentStatus) { PushHolds(row, AfterStaff(q), PaymentColumn, Str(q.paymentStatus.value)); }
  }

  /** The built WHERE clause selects exactly the rows the filters describe. */
  lemma FilterMeansSelected(q: ListQuery, row: Joined)
    ensures HoldsAll(row, BuildFilter(q).conds, BuildFilter(q).params) <==> Selected(q, row)
  {
    var f3 := AfterPayment(q);
    HoldsAfterPayment(q, row);
    if Present(q.search) {
      var p := Str(SearchPattern(q.search.value));
      var g := Push(f3, SearchColumns, p);
      assert BuildFilter(q) == g;
      assert g.params[f3.nextIndex - 1] == p;
      PushHolds(row, f3, SearchColumns, p);
      ILikeSearchPattern(row.user.fullName, q.search.value);
      ILikeSearchPattern(row.user.email, q.search.value);
      ILikeSearchPattern(row.user.fiscalCode, q.search.value);
    } else {
      assert BuildFilter(q) == f3;
    }
  }

  // ---------------------------------------------------------------------------------------------------
  // Rows and per-row counts

  /** The joined row of application `id`: the inner join needs the owner, the left join does not need
      the assigned staff member. */
  function JoinAt(s: Store, id: nat): Option<Joined> {
    if id in s.tessere && s.tessere[id].userId in s.users then
      var t := s.tessere[id];
      Some(Joined(t, s.users[t.userId],
                  if t.assignedStaffId.Some? && t.assignedStaffId.value in s.staff
                  then Some(s.staff[t.assignedStaffId.value]) else None))
    else None
  }

  /** The joined rows of applications with id below `n` that satisfy the conditions, in id order. */
  function MatchingRows(s: Store, conds: seq<Cond>, params: seq<Param>, n: nat): (rows: seq<Joined>)
    ensures |rows| <= n
    ensures forall i :: 0 <= i < |rows| ==> HoldsAll(rows[i], conds, params)
    ensures forall id :: 0 <= id < n && JoinAt(s, id).Some? && HoldsAll(JoinAt(s, id).value, conds, params)
              ==> JoinAt(s, id).value in rows
    decreases n
  {
    if n == 0 then []
    else
      var j := JoinAt(s, n - 1);
      MatchingRows(s, conds, params, n - 1) + (if j.Some? && HoldsAll(j.value, conds, params) then [j.value] else [])
  }

  /** The ids below `n` whose joined row satisfies the conditions. */
  function MatchIds(s: Store, conds: seq<Cond>, params: seq<Param>, n: nat): set<nat> {
    set id: nat | id < n && JoinAt(s, id).Some? && HoldsAll(JoinAt(s, id).value, conds, params)
  }

  /** One row per matching application: the rows are as many as the matching ids. */
  lemma {:induction false} MatchingRowsCount(s: Store, conds: seq<Cond>, params: seq<Param>, n: nat)
    ensures |MatchingRows(s, conds, params, n)| == |MatchIds(s, conds, params, n)|
    decreases n
  {
    if n == 0 {
      assert MatchIds(s, conds, params, n) == {};
    } else {
      MatchingRowsCount(s, conds, params, n - 1);
      MatchIdsStep(s, conds, params, n);
    }
  }

  /** Raising the bound by one adds at most the new id, which was not there before. */
  lemma MatchIdsStep(s: Store, conds: seq<Cond>, params: seq<Param>, n: nat)
    requires n > 0
    ensures var j := JoinAt(s, n - 1);
            var before := MatchIds(s, conds, params, n - 1);
            && n - 1 !in before
            && MatchIds(s, conds, params, n)
               == before + (if j.Some? && HoldsAll(j.value, conds, params) then {n - 1} else {})
  {
  }


  function CountDocuments(docs: seq<Document>, id: nat): nat
    decreases |docs|
  {
    if |docs| == 0 then 0 else One(docs[0].tessId == id) + CountDocuments(docs[1..], id)
  }

  function CountApproved(docs: seq<Document>, id: nat): nat
    decreases |docs|
  {
    if |docs| == 0 then 0 else One(docs[0].tessId == id && docs[0].isApproved) + CountApproved(docs[1..], id)
  }

  function CountUnread(msgs: seq<ChatMessage>, id: nat): nat
    decreases |msgs|
  {
    if |msgs| == 0 then 0
    else One(msgs[0].tessId == id && !msgs[0].isRead && msgs[0].senderType == "user") + CountUnread(msgs[1..], id)
  }

  /** The documents of one application, in table order. */
  function DocumentsOf(docs: seq<Document>, id: nat): (r: seq<Document>)
    ensures forall i :: 0 <= i < |r| ==> r[i].tessId == id
    decreases |docs|
  {
    if |docs| == 0 then []
    else (if docs[0].tessId == id then [docs[0]] else []) + DocumentsOf(docs[1..], id)
  }

  /** `ORDER BY d.uploaded_at DESC`: the sort key is the negated upload time. */
  function NewestFirst(d: Document): int {
    -d.uploadedAt
  }

  /** The documents of one application as the single fetch returns them, most recently uploaded first. */
  function DocumentList(docs: seq<Document>, id: nat): (r: seq<Document>)
    ensures multiset(r) == multiset(DocumentsOf(docs, id))
    ensures |r| == |DocumentsOf(docs, id)|
    ensures forall i, j :: 0 <= i < j < |r| ==> r[i].uploadedAt >= r[j].uploadedAt
  {
    var r := Ordering.SortBy(DocumentsOf(docs, id), NewestFirst);
    Ordering.SortByPermutes(DocumentsOf(docs, id), NewestFirst);
    Ordering.SortBySorted(DocumentsOf(docs, id), NewestFirst);
    Ordering.SortByMembers(DocumentsOf(docs, id), NewestFirst);
    assert forall i, j :: 0 <= i < j < |r| ==> NewestFirst(r[i]) <= NewestFirst(r[j]);
    r
  }

  /** The approved count filters the same documents further, so it never exceeds the document count. */
  lemma {:induction false} ApprovedWithinDocuments(docs: seq<Document>, id: nat)
    ensures CountApproved(docs, id) <= CountDocuments(docs, id)
    decreases |docs|
  {
    if |docs| > 0 {
      ApprovedWithinDocuments(docs[1..], id);
    }
  }

  /** The listing's document count is the length of the single fetch's document list. */
  lemma {:induction false} DocumentsCountIsListLength(docs: seq<Document>, id: nat)
    ensures CountDocuments(docs, id) == |DocumentsOf(docs, id)|
    ensures CountDocuments(docs, id) == |DocumentList(docs, id)|
    decreases |docs|
  {
    if |docs| > 0 {
      DocumentsCountIsListLength(docs[1..], id);
    }
  }

  // The rows each correlated subquery counts, as sets of table positions.

  /** `WHERE d.tesseramento_id = t.id`. */
  predicate IsDocumentOf(d: Document, id: nat) {
    d.tessId == id
  }

  /** `WHERE d.tesseramento_id = t.id AND d.is_approved = true`. */
  predicate IsApprovedOf(d: Document, id: nat) {
    d.tessId == id && d.isApproved
  }

  /** `WHERE cm.tesseramento_id = t.id AND cm.is_read = false AND cm.sender_type = 'user'`. */
  predicate IsUnreadOf(m: ChatMessage, id: nat) {
    m.tessId == id && !m.isRead && m.senderType == "user"
  }

  function DocumentRows(docs: seq<Document>, id: nat): set<int> {
    set i | 0 <= i < |docs| && IsDocumentOf(docs[i], id)
  }

  function ApprovedRows(docs: seq<Document>, id: nat): set<int> {
    set i | 0 <= i < |docs| && IsApprovedOf(docs[i], id)
  }

  function UnreadRows(msgs: seq<ChatMessage>, id: nat): set<int> {
    set i | 0 <= i < |msgs| && IsUnreadOf(msgs[i], id)
  }

  /** `CountDocuments` over a suffix counts the positions of that suffix whose document belongs to `id`. */
  lemma {:induction false} CountDocumentsRows(docs: seq<Document>, id: nat, k: nat)
    requires k <= |docs|
    ensures CountDocuments(docs[k..], id) == |set i | k <= i < |docs| && IsDocumentOf(docs[i], id)|
    decreases |docs| - k
  {
    var here := set i | k <= i < |docs| && IsDocumentOf(docs[i], id);
    if k == |docs| {
      assert here == {};
    } else {
      CountDocumentsRows(docs, id, k + 1);
      var later := set i | k + 1 <= i < |docs| && IsDocumentOf(docs[i], id);
      assert docs[k..][1..] == docs[k + 1..];
      assert here == later + (if IsDocumentOf(docs[k], id) then {k} else {});
    }
  }

  lemma {:induction false} CountApprovedRows(docs: seq<Document>, id: nat, k: nat)
    requires k <= |docs|
    ensures CountApproved(docs[k..], id) == |set i | k <= i < |docs| && IsApprovedOf(docs[i], id)|
    decreases |docs| - k
  {
    var here := set i | k <= i < |docs| && IsApprovedOf(docs[i], id);
    if k == |docs| {
      assert here == {};
    } else {
      CountApprovedRows(docs, id, k + 1);
      var later := set i | k + 1 <= i < |docs| && IsApprovedOf(docs[i], id);
      assert docs[k..][1..] == docs[k + 1..];
      assert here == later + (if IsApprovedOf(docs[k], id) then {k} else {});
    }
  }

  lemma {:induction false} CountUnreadRows(msgs: seq<ChatMessage>, id: nat, k: nat)
    requires k <= |msgs|
    ensures CountUnread(msgs[k..], id) == |set i | k <= i < |msgs| && IsUnreadOf(msgs[i], id)|
    decreases |msgs| - k
  {
    var here := set i | k <= i < |msgs| && IsUnreadOf(msgs[i], id);
    if k == |msgs| {
      assert here == {};
    } else {
      CountUnreadRows(msgs, id, k + 1);
      var later := set i | k + 1 <= i < |msgs| && IsUnreadOf(msgs[i], id);
      assert msgs[k..][1..] == msgs[k + 1..];
      assert here == later + (if IsUnreadOf(msgs[k], id) then {k} else {});
    }
  }

  datatype ListRow = ListRow(row: Joined, unreadMessages: nat, documentsCount: nat, approvedDocuments: nat)

  /** The three correlated subqueries of a listed row. */
  function Annotate(s: Store, row: Joined): (r: ListRow)
    ensures r.row == row
    ensures r.approvedDocuments <= r.documentsCount
  {
    ApprovedWithinDocuments(s.documents, row.tess.id);
    ListRow(row, CountUnread(s.messages, row.tess.id), CountDocuments(s.documents, row.tess.id),
            CountApproved(s.documents, row.tess.id))
  }

  /** Each count of a listed row is the number of rows its subquery's WHERE clause selects, and the
      document count is the length of the single fetch's document list. */
  lemma AnnotateCounts(s: Store, row: Joined)
    ensures Annotate(s, row).unreadMessages == |UnreadRows(s.messages, row.tess.id)|
    ensures Annotate(s, row).documentsCount == |DocumentRows(s.documents, row.tess.id)|
    ensures Annotate(s, row).approvedDocuments == |ApprovedRows(s.documents, row.tess.id)|
    ensures Annotate(s, row).documentsCount == |DocumentList(s.documents, row.tess.id)|
  {
    CountUnreadRows(s.messages, row.tess.id, 0);
    CountDocumentsRows(s.documents, row.tess.id, 0);
    CountApprovedRows(s.documents, row.tess.id, 0);
    assert s.messages[0..] == s.messages;
    assert s.documents[0..] == s.documents;
    DocumentsCountIsListLength(s.documents, row.tess.id);
  }

  function AnnotateAll(s: Store, rows: seq<Joined>): (r: seq<ListRow>)
    ensures |r| == |rows|
    ensures forall i :: 0 <= i < |r| ==> r[i] == Annotate(s, rows[i])
  {
    seq(|rows|, i requires 0 <= i < |rows| => Annotate(s, rows[i]))
  }

  // ---------------------------------------------------------------------------------------------------
  // ORDER BY

  const SortColumns: seq<string> := ["created_at", "updated_at", "full_name", "status", "payment_status"]

  /** The allow-listed sort column; anything else falls back to created_at and never errors. */
  function SortColumn(sortBy: string): (c: string)
    ensures c in SortColumns
    ensures c == sortBy <==> sortBy in SortColumns
    ensures sortBy !in SortColumns ==> c == DefaultSortBy
  {
    if sortBy in SortColumns then sortBy else DefaultSortBy
  }

  datatype Direction = Asc | Desc

  function SortDirection(sortOrder: string): Direction {
    if Text.ToUpper(sortOrder) == "ASC" then Asc else Desc
  }

  /** How the database compares the values of each sort column, as an integer rank of the joined row:
      equal values rank equally, and NULL ranks above every value, which gives PostgreSQL's default of
      NULLS LAST ascending and NULLS FIRST descending. */
  type Ranking = (string, Joined) -> int

  /** The sort key of a row under `ORDER BY <column> <direction>`: descending negates the rank. */
  function OrderKey(rank: Ranking, column: string, direction: Direction): Joined -> int {
    row => if direction == Asc then rank(column, row) else -rank(column, row)
  }

  /** The rows in the order the main query returns them. */
  function Ordered(rank: Ranking, q: PageQuery, rows: seq<Joined>): seq<Joined> {
    Ordering.SortBy(rows, OrderKey(rank, q.sortColumn, q.direction))
  }

  /** The main query's order is a permutation of the rows it sorts, in key order. */
  lemma OrderedPermutes(rank: Ranking, q: PageQuery, rows: seq<Joined>)
    ensures multiset(Ordered(rank, q, rows)) == multiset(rows)
    ensures |Ordered(rank, q, rows)| == |rows| && forall y :: y in Ordered(rank, q, rows) <==> y in rows
    ensures Ordering.SortedBy(Ordered(rank, q, rows), OrderKey(rank, q.sortColumn, q.direction))
  {
    var key := OrderKey(rank, q.sortColumn, q.direction);
    Ordering.SortByPermutes(rows, key);
    Ordering.SortBySorted(rows, key);
    Ordering.SortByMembers(rows, key);
  }

  /** The direction is ascending for exactly the eight spellings of "asc" in any letter case, and
      descending for every other string. */
  lemma AscendingSpellings(o: string)
    ensures SortDirection(o) == Asc <==>
      && |o| == 3
      && (o[0] == 'a' || o[0] == 'A') && (o[1] == 's' || o[1] == 'S') && (o[2] == 'c' || o[2] == 'C')
  {
    var u := Text.ToUpper(o);
    if |o| == 3 {
      Text.UpperCharInverse(o[0], 'A');
      Text.UpperCharInverse(o[1], 'S');
      Text.UpperCharInverse(o[2], 'C');
      assert u == "ASC" <==> u[0] == 'A' && u[1] == 'S' && u[2] == 'C';
    } else {
      assert |u| != |"ASC"|;
    }
  }

  // ---------------------------------------------------------------------------------------------------
  // Pagination

  function Offset(page: int, limit: int): int {
    (page - 1) * limit
  }

  /** `Math.ceil(total / limit)`. */
  function CeilDiv(total: nat, limit: int): nat
    requires limit >= 1
  {
    (total + limit - 1) / limit
  }

  datatype Pagination = Pagination(
    currentPage: int, totalPages: nat, totalItems: nat, itemsPerPage: int, hasNext: bool, hasPrev: bool)

  function Paginate(page: int, limit: int, total: nat): Pagination
    requires limit >= 1
  {
    var pages := CeilDiv(total, limit);
    Pagination(page, pages, total, limit, page < pages, page > 1)
  }

  /** The page count is the least number of pages of `limit` rows that hold `total` rows. */
  lemma TotalPagesIsCeiling(total: nat, limit: int)
    requires limit >= 1
    ensures CeilDiv(total, limit) * limit >= total
    ensures total > 0 ==> (CeilDiv(total, limit) - 1) * limit < total
    ensures CeilDiv(total, limit) == 0 <==> total == 0
  {
    var c := CeilDiv(total, limit);
    var m := total + limit - 1;
    assert m == c * limit + m % limit;
    assert 0 <= m % limit < limit;
  }

  /** There is a next page exactly when rows remain after this page, and a previous one exactly when
      this page does not start at the first row. */
  lemma PaginationFlags(page: int, limit: int, total: nat)
    requires limit >= 1
    ensures Paginate(page, limit, total).hasNext <==> page * limit < total
    ensures Paginate(page, limit, total).hasPrev <==> Offset(page, limit) > 0
  {
    var c := CeilDiv(total, limit);
    TotalPagesIsCeiling(total, limit);
    if page < c {
      MulMonotone(page, c as int - 1, limit);
      if total == 0 { assert c == 0; }
    } else {
      MulMonotone(c, page, limit);
    }
    if page > 1 {
      MulMonotone(1, page - 1, limit);
    } else {
      MulMonotone(page - 1, 0, limit);
    }
  }

  lemma MulMonotone(a: int, b: int, k: int)
    requires a <= b && k >= 0
    ensures a * k <= b * k
  {
    assert b * k - a * k == (b - a) * k;
  }

  /** The worked example: 45 rows, 20 per page, page 3 is the last page and starts at row 40. */
  lemma PaginationExample()
    ensures Paginate(3, 20, 45) == Pagination(3, 3, 45, 20, false, true)
    ensures Offset(3, 20) == 40
  {
  }

  // ---------------------------------------------------------------------------------------------------
  // Executing the two queries

  /** The table alias that qualifies the ORDER BY column: `t` (tesseramenti) or `u` (users). */
  datatype Alias = TessAlias | UserAlias

  /** The columns of `tesseramenti` that the handlers read or write. */
  const TesseramentiColumns: set<string> :=
    {"id", "user_id", "assigned_staff_id", "status", "payment_method", "payment_amount", "payment_status",
     "payment_reference", "payment_date", "notes", "rejection_reason", "completion_date", "created_at",
     "updated_at"}

  /** The columns of `users` that the handlers read or write. */
  const UsersColumns: set<string> :=
    {"id", "email", "full_name", "phone", "birth_date", "fiscal_code", "address", "city", "postal_code",
     "created_at", "updated_at"}

  predicate ColumnExists(a: Alias, column: string) {
    if a == TessAlias then column in TesseramentiColumns else column in UsersColumns
  }

  /** The listing's main query: WHERE, `ORDER BY <alias>.<column>` and `LIMIT $limitAt OFFSET $offsetAt`. */
  datatype PageQuery = PageQuery(conds: seq<Cond>, sortAlias: Alias, sortColumn: string, direction: Direction,
                                 limitAt: nat, offsetAt: nat)

  function MaxPlaceholder(conds: seq<Cond>): nat
    decreases |conds|
  {
    if |conds| == 0 then 0 else Max(MaxPlaceholder(conds[..|conds| - 1]), conds[|conds| - 1].placeholder)
  }

  /** Placeholders numbered 1..n reach up to n. */
  lemma {:induction false} MaxOfConsecutive(conds: seq<Cond>)
    requires forall i :: 0 <= i < |conds| ==> conds[i].placeholder == i + 1
    ensures MaxPlaceholder(conds) == |conds|
    decreases |conds|
  {
    if |conds| > 0 {
      MaxOfConsecutive(conds[..|conds| - 1]);
    }
  }

  /** How many parameters PostgreSQL expects: the highest placeholder the statement references. */
  function PageArity(q: PageQuery): nat {
    Max(MaxPlaceholder(q.conds), Max(q.limitAt, q.offsetAt))
  }

  /** A statement sent with a parameter count other than its highest placeholder. node-postgres sends a
      query with no values as a simple query, in which PostgreSQL finds no parameter $1 (42P02); with
      values it binds them, and PostgreSQL refuses the bind message (08P01). */
  function ArityFault(sent: nat): Fault {
    if sent == 0 then PgError("42P02") else PgError("08P01")
  }

  /** The first `lim` matching rows from position `off`. */
  function Window(rows: seq<Joined>, off: nat, lim: nat): (w: seq<Joined>)
    ensures |w| == if off >= |rows| then 0 else Min(lim, |rows| - off)
    ensures forall i :: 0 <= i < |w| ==> w[i] == rows[off + i]
  {
    if off >= |rows| then [] else rows[off..Min(off + lim, |rows|)]
  }

  /** The count query: `SELECT COUNT(*)` over the same WHERE clause. */
  function RunCount(s: Store, conds: seq<Cond>, params: seq<Param>): (r: Result<nat, Fault>)
    ensures r.Ok? <==> MaxPlaceholder(conds) == |params|
    ensures r.Err? ==> r.error == ArityFault(|params|)
    ensures r.Ok? ==> r.value == |MatchingRows(s, conds, params, s.nextTessId)|
    ensures r.Ok? ==> r.value == |MatchIds(s, conds, params, s.nextTessId)|
  {
    MatchingRowsCount(s, conds, params, s.nextTessId);
    if MaxPlaceholder(conds) != |params| then Err(ArityFault(|params|))
    else Ok(|MatchingRows(s, conds, params, s.nextTessId)|)
  }

  /** The main query: an unknown ORDER BY column fails at parse, before any parameter is looked at. */
  function RunPage(s: Store, q: PageQuery, params: seq<Param>, rank: Ranking): (r: Result<seq<ListRow>, Fault>)
    ensures !ColumnExists(q.sortAlias, q.sortColumn) ==> r == Err(PgError("42703"))
    ensures ColumnExists(q.sortAlias, q.sortColumn) && PageArity(q) != |params| ==> r == Err(ArityFault(|params|))
    ensures r.Ok? ==> PageArity(q) == |params| && |r.value| <= |MatchingRows(s, q.conds, params, s.nextTessId)|
  {
    if !ColumnExists(q.sortAlias, q.sortColumn) then Err(PgError("42703")) else BindPage(s, q, params, rank)
  }

  /** The main query once parsed: bind, check LIMIT and OFFSET, then take the window of the matching
      rows in ORDER BY order. */
  function BindPage(s: Store, q: PageQuery, params: seq<Param>, rank: Ranking): (r: Result<seq<ListRow>, Fault>)
    ensures PageArity(q) != |params| ==> r == Err(ArityFault(|params|))
    ensures r.Ok? ==> |r.value| <= |MatchingRows(s, q.conds, params, s.nextTessId)|
  {
    if PageArity(q) != |params| then Err(ArityFault(|params|))
    else if q.limitAt == 0 || q.offsetAt == 0 then Err(PgError("42P02"))
    else
      var lim := params[q.limitAt - 1];
      var off := params[q.offsetAt - 1];
      if !lim.Num? || !off.Num? then Err(PgError("22P02"))
      else if lim.n < 0 then Err(PgError("2201W"))
      else if off.n < 0 then Err(PgError("2201X"))
      else Ok(PageOf(s, rank, q, MatchingRows(s, q.conds, params, s.nextTessId), off.n, lim.n))
  }

  /** The rows from position `off`, at most `lim` of them, of the matching rows in ORDER BY order, each
      with its counts. */
  function PageOf(s: Store, rank: Ranking, q: PageQuery, rows: seq<Joined>, off: nat, lim: nat): (r: seq<ListRow>)
    ensures |r| == if off >= |rows| then 0 else Min(lim, |rows| - off)
    ensures |r| <= |rows| && |r| <= lim
  {
    OrderedPermutes(rank, q, rows);
    AnnotateAll(s, Window(Ordered(rank, q, rows), off, lim))
  }

  datatype Listing = Listing(rows: seq<ListRow>, pagination: Pagination)

  /** The main query as the handler builds it, after the filters took placeholders 1..n: the sort column
      is always qualified with `t`. */
  function MainQueryAsWritten(q: ListQuery, f: Filter): PageQuery {
    PageQuery(f.conds, TessAlias, SortColumn(q.sortBy), SortDirection(q.sortOrder), f.nextIndex, f.nextIndex + 1)
  }

  /** The alias of the table that has the column: `full_name` belongs to `users`. */
  function SortAlias(column: string): Alias {
    if column in TesseramentiColumns then TessAlias else UserAlias
  }

  /** The main query with the sort column qualified by the table that has it. */
  function MainQuery(q: ListQuery, f: Filter): PageQuery {
    var column := SortColumn(q.sortBy);
    PageQuery(f.conds, SortAlias(column), column, SortDirection(q.sortOrder), f.nextIndex, f.nextIndex + 1)
  }

  /** Every allow-listed sort column exists under its qualifying alias; only `full_name` is not a column of
      `tesseramenti`, so `t.full_name` is the one reference the database cannot resolve. */
  lemma SortColumnResolves(sortBy: string)
    ensures ColumnExists(SortAlias(SortColumn(sortBy)), SortColumn(sortBy))
    ensures ColumnExists(TessAlias, SortColumn(sortBy)) <==> SortColumn(sortBy) != "full_name"
  {
    var c := SortColumn(sortBy);
    assert c in SortColumns;
    assert c == "created_at" || c == "updated_at" || c == "full_name" || c == "status" || c == "payment_status";
  }

  /** `queryParams` after `push(limit, offset)`. */
  function AllParams(q: ListQuery, f: Filter): seq<Param> {
    f.params + [Num(q.limit), Num(Offset(q.page, q.limit))]
  }

  function Respond(q: ListQuery, rows: Result<seq<ListRow>, Fault>, count: Result<nat, Fault>): Response<Listing>
    requires q.limit >= 1
  {
    if rows.Err? || count.Err? then Response(500, None)
    else Response(200, Some(Listing(rows.value, Paginate(q.page, q.limit, count.value))))
  }

  /** `getTesseramenti` as written: both queries are sent `queryParams.slice(0, -2)`, so the main query is
      bound without its LIMIT and OFFSET values. */
  function GetTesseramentiAsWritten(pool: Pool, s: Store, q: ListQuery, rank: Ranking): Response<Listing>
    requires q.limit >= 1
  {
    var f := BuildFilter(q);
    var all := AllParams(q, f);
    var sent := all[..|all| - 2];
    Respond(q, Query(pool, RunPage(s, MainQueryAsWritten(q, f), sent, rank)), Query(pool, RunCount(s, f.conds, sent)))
  }

  /** The main query references two placeholders more than it is sent, so PostgreSQL refuses it and every
      listing request answers 500: with no filters nothing is bound and $1 is unknown (42P02), otherwise
      the bind message is short (08P01), unless `t.full_name` already failed to resolve. The count query
      alone is bound correctly. */
  lemma ListingAsWrittenAlwaysFails(pool: Pool, s: Store, q: ListQuery, rank: Ranking)
    requires q.limit >= 1
    ensures GetTesseramentiAsWritten(pool, s, q, rank).status == 500
    ensures var f := BuildFilter(q);
            var sent := AllParams(q, f)[..|AllParams(q, f)| - 2];
            && PageArity(MainQueryAsWritten(q, f)) == |f.params| + 2
            && |sent| == |f.params|
            && RunPage(s, MainQueryAsWritten(q, f), sent, rank)
               == Err(if SortColumn(q.sortBy) == "full_name" then PgError("42703") else ArityFault(|f.params|))
            && RunCount(s, f.conds, sent).Ok?
  {
    var f := BuildFilter(q);
    SlicedParams(q, f);
    SortColumnResolves(q.sortBy);
    var sent := AllParams(q, f)[..|AllParams(q, f)| - 2];
    var page := RunPage(s, MainQueryAsWritten(q, f), sent, rank);
    assert page.Err?;
    assert Query(pool, page).Err?;
  }

  /** `getTesseramenti` with the parameters bound in full but `ORDER BY t.${sortColumn}` as written. */
  function GetTesseramentiSortAsWritten(pool: Pool, s: Store, q: ListQuery, rank: Ranking): Response<Listing>
    requires q.limit >= 1
  {
    var f := BuildFilter(q);
    Respond(q, Query(pool, RunPage(s, MainQueryAsWritten(q, f), AllParams(q, f), rank)),
            Query(pool, RunCount(s, f.conds, f.params)))
  }

  /** Sorting by the allow-listed `full_name` references `t.full_name`, a column `tesseramenti` does not
      have, so that request answers 500; every other sort choice behaves as the corrected listing. */
  lemma FullNameSortAsWrittenFails(pool: Pool, s: Store, q: ListQuery, rank: Ranking)
    requires q.limit >= 1
    ensures q.sortBy == "full_name" ==> GetTesseramentiSortAsWritten(pool, s, q, rank).status == 500
    ensures q.sortBy != "full_name" ==> GetTesseramentiSortAsWritten(pool, s, q, rank) == GetTesseramenti(pool, s, q, rank)
  {
    SortColumnResolves(q.sortBy);
    var f := BuildFilter(q);
    if q.sortBy == "full_name" {
      assert SortColumn(q.sortBy) == "full_name";
      assert RunPage(s, MainQueryAsWritten(q, f), AllParams(q, f), rank).Err?;
    } else {
      assert MainQueryAsWritten(q, f) == MainQuery(q, f);
    }
  }

  /** The sliced list is exactly the filter values, which the main query's last placeholder outnumbers by
      two. */
  lemma SlicedParams(q: ListQuery, f: Filter)
    requires Consecutive(f)
    ensures AllParams(q, f)[..|AllParams(q, f)| - 2] == f.params
    ensures PageArity(MainQuery(q, f)) == |f.params| + 2
    ensures MaxPlaceholder(f.conds) == |f.params|
  {
    MaxOfConsecutive(f.conds);
    var all := AllParams(q, f);
    assert all[..|all| - 2] == f.params;
  }

  /** `getTesseramenti` with the parameters bound as the statements need: the main query receives the
      filter parameters followed by limit and offset, the count query only the filter parameters. */
  function GetTesseramenti(pool: Pool, s: Store, q: ListQuery, rank: Ranking): (r: Response<Listing>)
    requires q.limit >= 1
    ensures r.status == 200 || r.status == 500
    ensures r.status == 200 <==> pool.queryErr.None? && q.page >= 1
    ensures r.status == 200 ==> r.body.Some? && |r.body.value.rows| <= q.limit
    ensures r.status == 200 ==> forall i :: 0 <= i < |r.body.value.rows| ==>
              Selected(q, r.body.value.rows[i].row)
              && r.body.value.rows[i].approvedDocuments <= r.body.value.rows[i].documentsCount
    ensures r.status == 200 ==>
              var key := OrderKey(rank, SortColumn(q.sortBy), SortDirection(q.sortOrder));
              forall i, j :: 0 <= i < j < |r.body.value.rows| ==>
                key(r.body.value.rows[i].row) <= key(r.body.value.rows[j].row)
  {
    var f := BuildFilter(q);
    var rows := RunPage(s, MainQuery(q, f), AllParams(q, f), rank);
    CorrectedPage(s, q, rank);
    PageSelected(s, q, rank);
    PageInOrder(s, q, rank);
    Respond(q, Query(pool, rows), Query(pool, RunCount(s, f.conds, f.params)))
  }

  /** With the full parameter list, the count query counts the matching rows, the main query succeeds
      exactly for a page of at least 1, and what it returns is the window of matching rows, in ORDER BY
      order, from the page's offset. */
  lemma CorrectedPage(s: Store, q: ListQuery, rank: Ranking)
    requires q.limit >= 1
    ensures var f := BuildFilter(q);
            var rows := RunPage(s, MainQuery(q, f), AllParams(q, f), rank);
            var matching := MatchingRows(s, f.conds, f.params, s.nextTessId);
            && RunCount(s, f.conds, f.params) == Ok(|matching|)
            && (rows.Ok? <==> q.page >= 1)
            && (rows.Ok? ==> rows.value == PageOf(s, rank, MainQuery(q, f), matching, Offset(q.page, q.limit), q.limit))
  {
    var f := BuildFilter(q);
    MaxOfConsecutive(f.conds);
    CorrectedPageRows(s, q, f, MatchingRows(s, f.conds, f.params, s.nextTessId), rank);
  }

  /** Every row of the page meets the request's filters. */
  lemma PageSelected(s: Store, q: ListQuery, rank: Ranking)
    requires q.limit >= 1
    ensures var f := BuildFilter(q);
            var rows := RunPage(s, MainQuery(q, f), AllParams(q, f), rank);
            rows.Ok? ==> forall i :: 0 <= i < |rows.value| ==> Selected(q, rows.value[i].row)
  {
    var f := BuildFilter(q);
    var matching := MatchingRows(s, f.conds, f.params, s.nextTessId);
    var rows := RunPage(s, MainQuery(q, f), AllParams(q, f), rank);
    MaxOfConsecutive(f.conds);
    CorrectedPageRows(s, q, f, matching, rank);
    if rows.Ok? {
      assert rows.value == PageOf(s, rank, MainQuery(q, f), matching, Offset(q.page, q.limit), q.limit);
      WindowSelected(s, q, Offset(q.page, q.limit), q.limit, rank);
    }
  }

  /** The page's rows follow the requested ORDER BY: each sorts no later than the next. */
  lemma PageInOrder(s: Store, q: ListQuery, rank: Ranking)
    requires q.limit >= 1
    ensures var f := BuildFilter(q);
            var rows := RunPage(s, MainQuery(q, f), AllParams(q, f), rank);
            var key := OrderKey(rank, SortColumn(q.sortBy), SortDirection(q.sortOrder));
            rows.Ok? ==> forall i, j :: 0 <= i < j < |rows.value| ==> key(rows.value[i].row) <= key(rows.value[j].row)
  {
    var f := BuildFilter(q);
    var pq := MainQuery(q, f);
    RunPageInOrder(s, pq, AllParams(q, f), rank);
    assert pq.sortColumn == SortColumn(q.sortBy) && pq.direction == SortDirection(q.sortOrder);
  }

  /** Whatever statement is run, the rows of a successful main query follow its ORDER BY. */
  lemma RunPageInOrder(s: Store, pq: PageQuery, params: seq<Param>, rank: Ranking)
    ensures var rows := RunPage(s, pq, params, rank);
            var key := OrderKey(rank, pq.sortColumn, pq.direction);
            rows.Ok? ==> forall i, j :: 0 <= i < j < |rows.value| ==> key(rows.value[i].row) <= key(rows.value[j].row)
  {
    var rows := RunPage(s, pq, params, rank);
    if rows.Ok? {
      assert rows == BindPage(s, pq, params, rank);
      assert PageArity(pq) == |params| && pq.limitAt != 0 && pq.offsetAt != 0;
      var lim, off := params[pq.limitAt - 1], params[pq.offsetAt - 1];
      assert lim.Num? && off.Num? && lim.n >= 0 && off.n >= 0;
      var matching := MatchingRows(s, pq.conds, params, s.nextTessId);
      var page := PageOf(s, rank, pq, matching, off.n, lim.n);
      assert rows.value == page;
      PageOfInOrder(s, rank, pq, matching, off.n, lim.n);
    }
  }

  /** The first page opens with a row that sorts no later than any matching row, so the default listing
      (created_at DESC) opens with the newest application. */
  lemma FirstPageLeads(s: Store, q: ListQuery, rank: Ranking)
    requires q.limit >= 1 && q.page == 1
    ensures var f := BuildFilter(q);
            var rows := RunPage(s, MainQuery(q, f), AllParams(q, f), rank);
            var matching := MatchingRows(s, f.conds, f.params, s.nextTessId);
            var key := OrderKey(rank, SortColumn(q.sortBy), SortDirection(q.sortOrder));
            && rows.Ok? && (|rows.value| > 0 <==> |matching| > 0)
            && (|rows.value| > 0 ==> forall m :: m in matching ==> key(rows.value[0].row) <= key(m))
  {
    var f := BuildFilter(q);
    CorrectedPage(s, q, rank);
    var matching := MatchingRows(s, f.conds, f.params, s.nextTessId);
    var sorted := Ordered(rank, MainQuery(q, f), matching);
    var key := OrderKey(rank, SortColumn(q.sortBy), SortDirection(q.sortOrder));
    OrderedPermutes(rank, MainQuery(q, f), matching);
    assert Offset(q.page, q.limit) == 0;
    var rows := RunPage(s, MainQuery(q, f), AllParams(q, f), rank);
    if |rows.value| > 0 {
      assert rows.value[0].row == sorted[0];
      forall m | m in matching ensures key(rows.value[0].row) <= key(m) {
        Ordering.FirstIsLeast(sorted, key, m);
      }
    }
  }

  /** With created_at ranked by the creation time, the default order puts the newest matching
      application first. */
  lemma DefaultListingNewestFirst(pool: Pool, s: Store, q: ListQuery, rank: Ranking)
    requires q.limit >= 1 && q.page == 1 && pool.queryErr.None?
    requires SortColumn(q.sortBy) == DefaultSortBy && SortDirection(q.sortOrder) == Desc
    requires forall row :: rank(DefaultSortBy, row) == row.tess.createdAt
    ensures var r := GetTesseramenti(pool, s, q, rank);
            var f := BuildFilter(q);
            var matching := MatchingRows(s, f.conds, f.params, s.nextTessId);
            && r.status == 200
            && (|r.body.value.rows| > 0 <==> |matching| > 0)
            && (|r.body.value.rows| > 0 ==>
                  forall m :: m in matching ==> m.tess.createdAt <= r.body.value.rows[0].row.tess.createdAt)
  {
    FirstPageLeads(s, q, rank);
    var f := BuildFilter(q);
    var matching := MatchingRows(s, f.conds, f.params, s.nextTessId);
    var rows := RunPage(s, MainQuery(q, f), AllParams(q, f), rank);
    var key := OrderKey(rank, DefaultSortBy, Desc);
    if |rows.value| > 0 {
      forall m | m in matching ensures m.tess.createdAt <= rows.value[0].row.tess.createdAt {
        assert key(rows.value[0].row) <= key(m);
      }
    }
  }


  /** A request without parameters lists page 1 of 20 rows, with created_at ranked by the creation
      time: the newest applications first. */
  lemma BareRequest(pool: Pool, s: Store, rank: Ranking)
    requires pool.queryErr.None?
    requires forall row :: rank(DefaultSortBy, row) == row.tess.createdAt
    ensures var r := GetTesseramenti(pool, s, Destructure(NoParameters), rank);
            && r.status == 200
            && r.body.value.pagination.currentPage == 1 && r.body.value.pagination.itemsPerPage == 20
            && |r.body.value.rows| <= 20
            && forall i, j :: 0 <= i < j < |r.body.value.rows| ==>
                 r.body.value.rows[j].row.tess.createdAt <= r.body.value.rows[i].row.tess.createdAt
  {
    var q := Destructure(NoParameters);
    assert q.sortBy in SortColumns;
    assert SortColumn(q.sortBy) == DefaultSortBy;
    assert Text.ToUpper(q.sortOrder) == "DESC";
    assert SortDirection(q.sortOrder) == Desc;
    var r := GetTesseramenti(pool, s, q, rank);
    var key := OrderKey(rank, DefaultSortBy, Desc);
    forall i, j | 0 <= i < j < |r.body.value.rows|
      ensures r.body.value.rows[j].row.tess.createdAt <= r.body.value.rows[i].row.tess.createdAt
    {
      assert key(r.body.value.rows[i].row) <= key(r.body.value.rows[j].row);
    }
  }

  /** Every row of any window of the matching rows meets the query's filters. */
  lemma WindowSelected(s: Store, q: ListQuery, off: nat, lim: nat, rank: Ranking)
    ensures var f := BuildFilter(q);
            var matching := MatchingRows(s, f.conds, f.params, s.nextTessId);
            var rows := PageOf(s, rank, MainQuery(q, f), matching, off, lim);
            forall i :: 0 <= i < |rows| ==> Selected(q, rows[i].row)
  {
    var f := BuildFilter(q);
    var matching := MatchingRows(s, f.conds, f.params, s.nextTessId);
    var sorted := Ordered(rank, MainQuery(q, f), matching);
    OrderedPermutes(rank, MainQuery(q, f), matching);
    var w := Window(sorted, off, lim);
    var rows := AnnotateAll(s, w);
    forall i | 0 <= i < |rows| ensures Selected(q, rows[i].row) {
      assert rows[i].row == w[i] && w[i] == sorted[off + i];
      assert w[i] in matching;
      FilterMeansSelected(q, w[i]);
    }
  }

  /** A page is in ORDER BY order: a window of a sequence in key order is itself in key order. */
  lemma PageOfInOrder(s: Store, rank: Ranking, pq: PageQuery, matching: seq<Joined>, off: nat, lim: nat)
    ensures var rows := PageOf(s, rank, pq, matching, off, lim);
            var key := OrderKey(rank, pq.sortColumn, pq.direction);
            forall i, j :: 0 <= i < j < |rows| ==> key(rows[i].row) <= key(rows[j].row)
  {
    var key := OrderKey(rank, pq.sortColumn, pq.direction);
    var sorted := Ordered(rank, pq, matching);
    OrderedPermutes(rank, pq, matching);
    var rows := AnnotateAll(s, Window(sorted, off, lim));
    forall i, j | 0 <= i < j < |rows| ensures key(rows[i].row) <= key(rows[j].row) {
      assert rows[i].row == sorted[off + i] && rows[j].row == sorted[off + j];
    }
  }

  lemma CorrectedPageRows(s: Store, q: ListQuery, f: Filter, matching: seq<Joined>, rank: Ranking)
    requires q.limit >= 1 && Consecutive(f)
    requires matching == MatchingRows(s, f.conds, f.params, s.nextTessId)
    requires MaxPlaceholder(f.conds) == |f.conds|
    ensures var rows := RunPage(s, MainQuery(q, f), AllParams(q, f), rank);
            && (rows.Ok? <==> q.page >= 1)
            && (rows.Ok? ==> rows.value == PageOf(s, rank, MainQuery(q, f), matching, Offset(q.page, q.limit), q.limit))
  {
    var pq := MainQuery(q, f);
    var all := AllParams(q, f);
    var off := Offset(q.page, q.limit);
    MainQueryBinds(q, f);
    OffsetSign(q.page, q.limit);
    SameMatchingRows(s, f, [Num(q.limit), Num(off)], s.nextTessId);
    assert MatchingRows(s, pq.conds, all, s.nextTessId) == matching;
    RunPageBound(s, pq, all, q.limit, off, rank, matching);
  }

  /** The offset of a page of positive size is not negative exactly from page 1 on. */
  lemma OffsetSign(page: int, limit: int)
    requires limit >= 1
    ensures Offset(page, limit) >= 0 <==> page >= 1
  {
    if page >= 1 {
      MulMonotone(0, page - 1, limit);
    } else {
      MulMonotone(page - 1, -1, limit);
    }
  }

  /** The full parameter list has one value per placeholder, with limit and offset last. */
  lemma MainQueryBinds(q: ListQuery, f: Filter)
    requires Consecutive(f)
    requires MaxPlaceholder(f.conds) == |f.conds|
    ensures var pq := MainQuery(q, f);
            var all := AllParams(q, f);
            && all == f.params + [Num(q.limit), Num(Offset(q.page, q.limit))]
            && PageArity(pq) == |all| && pq.conds == f.conds && ColumnExists(pq.sortAlias, pq.sortColumn)
            && 1 <= pq.limitAt <= |all| && 1 <= pq.offsetAt <= |all|
            && all[pq.limitAt - 1] == Num(q.limit) && all[pq.offsetAt - 1] == Num(Offset(q.page, q.limit))
  {
    SortColumnResolves(q.sortBy);
  }

  /** A main query bound with as many values as it references, whose LIMIT value is not negative, fails
      exactly for a negative OFFSET and otherwise returns the window of matching rows. */
  lemma RunPageBound(s: Store, pq: PageQuery, params: seq<Param>, lim: int, off: int, rank: Ranking,
                      matching: seq<Joined>)
    requires ColumnExists(pq.sortAlias, pq.sortColumn)
    requires PageArity(pq) == |params| && 1 <= pq.limitAt && 1 <= pq.offsetAt
    requires pq.limitAt <= |params| && pq.offsetAt <= |params|
    requires params[pq.limitAt - 1] == Num(lim) && params[pq.offsetAt - 1] == Num(off) && lim >= 0
    requires matching == MatchingRows(s, pq.conds, params, s.nextTessId)
    ensures RunPage(s, pq, params, rank).Ok? <==> off >= 0
    ensures off >= 0 ==> RunPage(s, pq, params, rank).value == PageOf(s, rank, pq, matching, off, lim)
  {
    BindPageBound(s, pq, params, lim, off, rank);
  }

  lemma BindPageBound(s: Store, pq: PageQuery, params: seq<Param>, lim: int, off: int, rank: Ranking)
    requires PageArity(pq) == |params| && 1 <= pq.limitAt && 1 <= pq.offsetAt
    requires pq.limitAt <= |params| && pq.offsetAt <= |params|
    requires params[pq.limitAt - 1] == Num(lim) && params[pq.offsetAt - 1] == Num(off) && lim >= 0
    ensures BindPage(s, pq, params, rank).Ok? <==> off >= 0
    ensures off >= 0 ==>
              BindPage(s, pq, params, rank).value == PageOf(s, rank, pq, MatchingRows(s, pq.conds, params, s.nextTessId), off, lim)
  {
    var l, o := params[pq.limitAt - 1], params[pq.offsetAt - 1];
    assert l.Num? && l.n == lim && o.Num? && o.n == off;
    if off >= 0 {
      var page := PageOf(s, rank, pq, MatchingRows(s, pq.conds, params, s.nextTessId), off, lim);
      assert BindPage(s, pq, params, rank) == Ok(page);
    }
  }


  /** Conditions over placeholders 1..n read the same values when more parameters follow. */
  lemma HoldsAllIgnoresTail(row: Joined, f: Filter, extra: seq<Param>)
    requires Consecutive(f)
    ensures HoldsAll(row, f.conds, f.params + extra) <==> HoldsAll(row, f.conds, f.params)
  {
    forall i | 0 <= i < |f.conds|
      ensures Holds(row, f.conds[i], f.params + extra) <==> Holds(row, f.conds[i], f.params)
    {
      assert (f.params + extra)[i] == f.params[i];
    }
  }

  /** The corrected listing returns the window of matching rows that starts at the page's offset, and
      its pagination counts every matching row. */
  lemma ListingPage(pool: Pool, s: Store, q: ListQuery, rank: Ranking)
    requires q.limit >= 1 && q.page >= 1 && pool.queryErr.None?
    ensures var r := GetTesseramenti(pool, s, q, rank);
            var f := BuildFilter(q);
            var total := |MatchIds(s, f.conds, f.params, s.nextTessId)|;
            && r.body.value.pagination == Paginate(q.page, q.limit, total)
            && |r.body.value.rows| == (if Offset(q.page, q.limit) >= total then 0
                                       else Min(q.limit, total - Offset(q.page, q.limit)))
  {
    var f := BuildFilter(q);
    CorrectedPage(s, q, rank);
    MatchingRowsCount(s, f.conds, f.params, s.nextTessId);
  }

  /** The extra LIMIT/OFFSET parameters do not change which rows match. */
  lemma {:induction false} SameMatchingRows(s: Store, f: Filter, extra: seq<Param>, n: nat)
    requires Consecutive(f)
    ensures MatchingRows(s, f.conds, f.params + extra, n) == MatchingRows(s, f.conds, f.params, n)
    decreases n
  {
    if n > 0 {
      SameMatchingRows(s, f, extra, n - 1);
      var j := JoinAt(s, n - 1);
      if j.Some? {
        HoldsAllIgnoresTail(j.value, f, extra);
      }
    }
  }

  // ---------------------------------------------------------------------------------------------------
  // Single fetch

  datatype Detail = Detail(row: Joined, documents: seq<Document>)

  /** `getTesseramento`: 404 when the join yields no row, otherwise the row with its documents. */
  function Fetch(s: Store, idText: string): Result<Option<Joined>, Fault> {
    match RowKey(idText)
    case Err(e) => Err(e)
    case Ok(key) => Ok(if key.None? then None else JoinAt(s, key.value))
  }

  /** `getTesseramento`: the path id is cast to an integer by the database (a malformed id fails the query);
      404 when the join yields no row, otherwise the row with its documents. */
  function GetTesseramento(pool: Pool, s: Store, idText: string): (r: Response<Detail>)
    ensures pool.queryErr.Some? || RowKey(idText).Err? ==> r.status == 500
    ensures r.status == 404 <==> pool.queryErr.None? && RowKey(idText).Ok?
                                 && (RowKey(idText).value.None? || JoinAt(s, RowKey(idText).value.value).None?)
    ensures r.status == 200 <==> pool.queryErr.None? && RowKey(idText).Ok? && RowKey(idText).value.Some?
                                 && JoinAt(s, RowKey(idText).value.value).Some?
    ensures r.status == 200 ==>
              var id := RowKey(idText).value.value;
              r.body == Some(Detail(JoinAt(s, id).value, DocumentList(s.documents, id)))
  {
    var found := Query(pool, Fetch(s, idText));
    if found.Err? then Response(500, None)
    else if found.value.None? then Response(404, None)
    // the documents query goes through the same pool, which has just answered
    else Response(200, Some(Detail(found.value.value, DocumentList(s.documents, RowKey(idText).value.value))))
  }
}

=== FILE: ordering.dfy ===
/**
 * Ordering rows by one integer key, the shape of an `ORDER BY` on a single column once the database's
 * comparison of that column's values is given as a rank. The sort is stable: rows with equal keys keep
 * their input order, which is one of the orders PostgreSQL may return for ties.
 */
module Ordering {
  /** Every element's key is at most the key of every later element. */
  predicate SortedBy<T>(s: seq<T>, key: T -> int) {
    forall i, j :: 0 <= i < j < |s| ==> key(s[i]) <= key(s[j])
  }

  /** `x` placed before the first element whose key is not below its own. */
  function Insert<T>(x: T, s: seq<T>, key: T -> int): seq<T>
    decreases |s|
  {
    if |s| == 0 || key(x) <= key(s[0]) then [x] + s else [s[0]] + Insert(x, s[1..], key)
  }

  /** Insertion sort by the key. */
  function SortBy<T>(s: seq<T>, key: T -> int): seq<T>
    decreases |s|
  {
    if |s| == 0 then [] else Insert(s[0], SortBy(s[1..], key), key)
  }

  /** An insertion adds exactly the new element. */
  lemma {:induction false} InsertPermutes<T>(x: T, s: seq<T>, key: T -> int)
    ensures multiset(Insert(x, s, key)) == multiset(s) + multiset{x}
    decreases |s|
  {
    if |s| > 0 && key(x) > key(s[0]) {
      InsertPermutes(x, s[1..], key);
      assert s == [s[0]] + s[1..];
    }
  }

  /** The sort is a permutation of its input. */
  lemma {:induction false} SortByPermutes<T>(s: seq<T>, key: T -> int)
    ensures multiset(SortBy(s, key)) == multiset(s)
    decreases |s|
  {
    if |s| > 0 {
      SortByPermutes(s[1..], key);
      InsertPermutes(s[0], SortBy(s[1..], key), key);
      assert s == [s[0]] + s[1..];
    }
  }

  /** Inserting into a sorted sequence keeps it sorted. */
  lemma {:induction false} InsertSorted<T>(x: T, s: seq<T>, key: T -> int)
    requires SortedBy(s, key)
    ensures SortedBy(Insert(x, s, key), key)
    decreases |s|
  {
    if |s| > 0 && key(x) > key(s[0]) {
      var tail := Insert(x, s[1..], key);
      TailSorted(s, key);
      InsertSorted(x, s[1..], key);
      forall y | y in tail ensures key(s[0]) <= key(y) {
        InsertMember(x, s[1..], key, y);
        if y != x {
          FirstIsLeast(s, key, y);
        }
      }
      ConsSorted(s[0], tail, key);
    }
  }

  lemma TailSorted<T>(s: seq<T>, key: T -> int)
    requires SortedBy(s, key) && |s| > 0
    ensures SortedBy(s[1..], key)
  {
    forall i, j | 0 <= i < j < |s| - 1 ensures key(s[1..][i]) <= key(s[1..][j]) {
      assert s[1..][i] == s[i + 1] && s[1..][j] == s[j + 1];
    }
  }

  /** What an insertion holds is the new element or an old one. */
  lemma InsertMember<T>(x: T, s: seq<T>, key: T -> int, y: T)
    requires y in Insert(x, s, key)
    ensures y == x || y in s
  {
    InsertPermutes(x, s, key);
    assert y in multiset(Insert(x, s, key));
  }

  /** A head whose key is at most every key of a sorted tail gives a sorted sequence. */
  lemma ConsSorted<T>(h: T, t: seq<T>, key: T -> int)
    requires SortedBy(t, key)
    requires forall y :: y in t ==> key(h) <= key(y)
    ensures SortedBy([h] + t, key)
  {
    var r := [h] + t;
    forall i, j | 0 <= i < j < |r| ensures key(r[i]) <= key(r[j]) {
      assert r[j] == t[j - 1];
      if i > 0 {
        assert r[i] == t[i - 1];
      } else {
        assert r[j] in t;
      }
    }
  }

  /** The sort's output is in key order. */
  lemma {:induction false} SortBySorted<T>(s: seq<T>, key: T -> int)
    ensures SortedBy(SortBy(s, key), key)
    decreases |s|
  {
    if |s| > 0 {
      SortBySorted(s[1..], key);
      InsertSorted(s[0], SortBy(s[1..], key), key);
    }
  }

  /** The sort neither adds, drops nor repeats an element: same length, same members. */
  lemma SortByMembers<T>(s: seq<T>, key: T -> int)
    ensures |SortBy(s, key)| == |s|
    ensures forall y :: y in SortBy(s, key) <==> y in s
  {
    var r := SortBy(s, key);
    SortByPermutes(s, key);
    assert |multiset(r)| == |r| && |multiset(s)| == |s|;
    forall y ensures y in r <==> y in s {
      assert y in r <==> y in multiset(r);
      assert y in s <==> y in multiset(s);
    }
  }

  /** The first element of a sorted sequence has the least key of all its members. */
  lemma FirstIsLeast<T>(s: seq<T>, key: T -> int, y: T)
    requires SortedBy(s, key) && |s| > 0 && y in s
    ensures key(s[0]) <= key(y)
  {
    var k :| 0 <= k < |s| && s[k] == y;
    if k > 0 {
      assert key(s[0]) <= key(s[k]);
    }
  }
}

=== FILE: records.dfy ===
/**
 * The rows the membership core reads and writes (tables `users`, `tesseramenti`, `staff`, `documents`,
 * `chat_messages`, `audit_log`) and the store that holds them. Tables keyed by id are maps; the
 * append-only audit log and the read-only tables are sequences in insertion order. Ids of new users and
 * applications come from counters that stand for the tables' serial sequences.
 */
module Records {
  import opened Common

  /** A timestamp, supplied by the caller wherever the source reads the clock. */
  type Time = int

  /** Lifecycle status of an application; the validation layer admits only these four values. */
  datatype Status = Pending | InReview | Completed | Rejected

  /** The column value stored for a status. */
  function StatusName(st: Status): string {
    match st
    case Pending => "pending"
    case InReview => "in_review"
    case Completed => "completed"
    case Rejected => "rejected"
  }

  datatype User = User(
    email: string, fullName: string, phone: string, birthDate: string, fiscalCode: string,
    address: string, city: string, postalCode: string, createdAt: Time, updatedAt: Time)

  /** A staff row as the authentication query selects it (no password hash). */
  datatype Staff = Staff(id: nat, username: string, email: string, fullName: string, role: string, isActive: bool)

  /** One membership application ("tesseramento"). Amounts are in euro cents; `paymentStatus` is `None`
      while it holds the column default, which the core never writes. */
  datatype Tesseramento = Tesseramento(
    id: nat, userId: nat, assignedStaffId: Option<nat>, status: Status,
    paymentMethod: string, paymentAmount: int, paymentStatus: Option<string>,
    paymentReference: Option<string>, paymentDate: Option<Time>,
    notes: Option<string>, rejectionReason: Option<string>, completionDate: Option<Time>,
    createdAt: Time, updatedAt: Time)

  datatype Document = Document(tessId: nat, isApproved: bool, verifiedBy: Option<nat>, uploadedAt: Time)

  datatype ChatMessage = ChatMessage(tessId: nat, isRead: bool, senderType: string)

  datatype Action = Created | StatusChanged | Assigned

  /** The JSON snapshots stored in `audit_log.old_value` / `new_value`. */
  datatype Snapshot =
    | Row(t: Tesseramento)
    | StatusOnly(status: Status)
    | StatusChange(status: Status, notes: Option<string>, rejectionReason: Option<string>)
    | Assignment(assignedTo: nat, assignedBy: nat)

  datatype AuditEntry = AuditEntry(
    tessId: nat, staffId: Option<nat>, action: Action, entityType: string, entityId: nat,
    oldValue: Option<Snapshot>, newValue: Snapshot)

  datatype Store = Store(
    users: map<nat, User>,
    tessere: map<nat, Tesseramento>,
    staff: map<nat, Staff>,
    documents: seq<Document>,
    messages: seq<ChatMessage>,
    audit: seq<AuditEntry>,
    nextUserId: nat,
    nextTessId: nat)

  /** What a handler answers: the HTTP status and, on success, the JSON body. */
  datatype Response<B> = Response(status: nat, body: Option<B>)

  /** The per-row rules of the lifecycle: a rejection reason is stored only on a rejected application, and
      a completed application carries its completion date. */
  predicate RecordInvariant(t: Tesseramento) {
    && (t.rejectionReason.Some? ==> t.status == Rejected)
    && (t.status == Completed ==> t.completionDate.Some?)
  }

  predicate UniqueUserKeys(users: map<nat, User>) {
    forall a, b :: a in users && b in users && a != b ==>
      users[a].email != users[b].email && users[a].fiscalCode != users[b].fiscalCode
  }

  predicate RowValid(s: Store, k: nat)
    requires k in s.tessere
  {
    var t := s.tessere[k];
    && k < s.nextTessId
    && t.id == k
    && t.userId in s.users
    && (t.assignedStaffId.Some? ==> t.assignedStaffId.value in s.staff)
    && RecordInvariant(t)
  }

  /** Every user id was handed out by the users' sequence. */
  predicate UserIdsBelow(s: Store) {
    forall u :: u in s.users ==> u < s.nextUserId
  }

  /** The consistency the schema's keys and the handlers maintain between the tables. */
  predicate Valid(s: Store) {
    && UserIdsBelow(s)
    && UniqueUserKeys(s.users)
    && (forall k :: k in s.tessere ==> RowValid(s, k))
    && (forall k :: k in s.staff ==> s.staff[k].id == k)
    && (forall i :: 0 <= i < |s.audit| ==> s.audit[i].tessId in s.tessere)
  }
}

=== FILE: scenario.dfy ===
/** The worked example of the lifecycle: submit, move to review, reject with a reason. */
module Scenario {
  import opened Common
  import opened Records
  import opened Database
  import opened Lifecycle
  import Fanout

  const Reviewer := Staff(1, "mrossi", "m.rossi@example.org", "Mario Rossi", "staff", true)

  /** No users, applications, documents, messages or log entries; both identity sequences start at 1. */
  const Empty := Store(map[], map[], map[1 := Reviewer], [], [], [], 1, 1)

  const Applicant := Submission("a@x.com", "Anna Bianchi", "3331234567", "1990-01-01", "ABC123",
                                "Via Roma 1", "Milano", "20100", "bank_transfer")

  /** The id text of the first application, as it appears in the request path. */
  const FirstId := "1"

  /** After the three calls the application is rejected with the given reason, the log holds the
      'created' entry and two 'status_changed' entries, and the last call ends by emitting
      `status_updated` with the new status to the application's room. */
  lemma SubmitReviewReject()
    ensures var o1 := CreateTesseramento(Healthy, Empty, Applicant, 100);
      var o2 := UpdateStatus(Healthy, o1.store, FirstId, InReview, None, None, Reviewer, 200);
      var o3 := UpdateStatus(Healthy, o2.store, FirstId, Rejected, None, Some("incomplete documents"), Reviewer, 300);
      && o1.response.status == 201 && o1.response.body.Some?
      && o1.response.body.value.tess.id == 1 && o1.response.body.value.tess.status == Pending
      && o2.response.status == 200 && 1 in o2.store.tessere && o2.store.tessere[1].status == InReview
      && o2.store.tessere[1].rejectionReason.None?
      && 1 in o3.store.tessere && o3.store.tessere[1].status == Rejected
      && o3.store.tessere[1].rejectionReason == Some("incomplete documents")
      && |o3.store.audit| == 3
      && o3.store.audit[0].action == Created && o3.store.audit[1].action == StatusChanged
      && o3.store.audit[2].action == StatusChanged
      && o3.store.audit[2].oldValue == Some(StatusOnly(InReview))
      && |o3.effects| > 0
      && o3.effects[|o3.effects| - 1] == Emit(Fanout.StatusUpdated(Fanout.RoomName(FirstId), FirstId, Rejected, "Mario Rossi", 300))
  {
    FirstSubmission();
    var o1 := CreateTesseramento(Healthy, Empty, Applicant, 100);
    ReviewThenReject(o1.store);
  }

  /** The first submission to the empty store creates application 1, pending, with one log entry. */
  lemma FirstSubmission()
    ensures var o1 := CreateTesseramento(Healthy, Empty, Applicant, 100);
      && o1.response.status == 201 && o1.response.body.Some?
      && o1.response.body.value.tess.id == 1 && o1.response.body.value.tess.status == Pending
      && 1 in o1.store.tessere && o1.store.tessere[1].status == Pending
      && |o1.store.audit| == 1 && o1.store.audit[0].action == Created
  {
    assert Valid(Empty);
    SubmitCommits(Healthy, Empty, Applicant, 100);
    SubmitApplication(Empty, Applicant, 100);
  }

  /** Moving a pending application 1 to review and then rejecting it appends two status changes. */
  lemma ReviewThenReject(s: Store)
    requires 1 in s.tessere && s.tessere[1].status == Pending
    ensures var o2 := UpdateStatus(Healthy, s, FirstId, InReview, None, None, Reviewer, 200);
      var o3 := UpdateStatus(Healthy, o2.store, FirstId, Rejected, None, Some("incomplete documents"), Reviewer, 300);
      && o2.response.status == 200 && 1 in o2.store.tessere && o2.store.tessere[1].status == InReview
      && o2.store.tessere[1].rejectionReason.None?
      && 1 in o3.store.tessere && o3.store.tessere[1].status == Rejected
      && o3.store.tessere[1].rejectionReason == Some("incomplete documents")
      && o3.store.audit[..|s.audit|] == s.audit && |o3.store.audit| == |s.audit| + 2
      && o3.store.audit[|s.audit|].action == StatusChanged
      && o3.store.audit[|s.audit| + 1].action == StatusChanged
      && o3.store.audit[|s.audit| + 1].oldValue == Some(StatusOnly(InReview))
      && |o3.effects| > 0
      && o3.effects[|o3.effects| - 1] == Emit(Fanout.StatusUpdated(Fanout.RoomName(FirstId), FirstId, Rejected, "Mario Rossi", 300))
  {
    assert RowKey(FirstId) == Ok(Some(1));
    UpdateStatusSucceeds(Healthy, s, FirstId, 1, InReview, None, None, Reviewer, 200);
    var o2 := UpdateStatus(Healthy, s, FirstId, InReview, None, None, Reviewer, 200);
    UpdateStatusSucceeds(Healthy, o2.store, FirstId, 1, Rejected, None, Some("incomplete documents"), Reviewer, 300);
  }
}

=== FILE: text.dfy ===
/** String helpers: ASCII case mapping, substring search, splitting on a space and decimal rendering. */
module Text {

  function LowerChar(c: char): char {
    if 'A' <= c <= 'Z' then (c as int + 32) as char else c
  }

  function UpperChar(c: char): char {
    if 'a' <= c <= 'z' then (c as int - 32) as char else c
  }

  function ToLower(s: string): (r: string)
    ensures |r| == |s|
    ensures forall i :: 0 <= i < |s| ==> r[i] == LowerChar(s[i])
  {
    seq(|s|, i requires 0 <= i < |s| => LowerChar(s[i]))
  }

  /** `String.prototype.toUpperCase`, restricted to ASCII letters. */
  function ToUpper(s: string): (r: string)
    ensures |r| == |s|
    ensures forall i :: 0 <= i < |s| ==> r[i] == UpperChar(s[i])
  {
    seq(|s|, i requires 0 <= i < |s| => UpperChar(s[i]))
  }

  /** Exactly two characters map to an upper-case ASCII letter: itself and its lower-case form. */
  lemma UpperCharInverse(c: char, u: char)
    requires 'A' <= u <= 'Z'
    ensures UpperChar(c) == u <==> (c == u || c == LowerChar(u))
  {
  }

  predicate OccursAt(hay: string, needle: string, i: int) {
    0 <= i <= |hay| - |needle| && hay[i..i + |needle|] == needle
  }

  /** `needle` occurs in `hay` at some position. */
  predicate Contains(hay: string, needle: string) {
    exists i | 0 <= i <= |hay| :: OccursAt(hay, needle, i)
  }

  /** Case-insensitive substring test (ASCII folding). */
  predicate ContainsIgnoringCase(hay: string, needle: string) {
    Contains(ToLower(hay), ToLower(needle))
  }

  /** `s.split(' ')`: the maximal space-free pieces between single spaces, empty pieces included. */
  function Split(s: string): (parts: seq<string>)
    ensures |parts| >= 1
    ensures forall i :: 0 <= i < |parts| ==> ' ' !in parts[i]
    decreases |s|
  {
    if |s| == 0 then [""]
    else
      var rest := Split(s[1..]);
      if s[0] == ' ' then [""] + rest
      else [[s[0]] + rest[0]] + rest[1..]
  }

  /** A space-free word is a single piece. */
  lemma {:induction false} SplitWord(w: string)
    requires ' ' !in w
    ensures Split(w) == [w]
    decreases |w|
  {
    if |w| > 0 {
      assert ' ' !in w[1..] by {
        forall i | 0 <= i < |w[1..]| ensures w[1..][i] != ' ' {
          assert w[1..][i] == w[i + 1];
        }
      }
      SplitWord(w[1..]);
      assert [w[0]] + w[1..] == w;
    }
  }

  /** A space-free word followed by a space splits off as the first piece. */
  lemma {:induction false} SplitFirstWord(w: string, t: string)
    requires ' ' !in w
    ensures Split(w + " " + t) == [w] + Split(t)
    decreases |w|
  {
    if |w| == 0 {
      assert w + " " + t == [' '] + t;
      assert (w + " " + t)[1..] == t;
    } else {
      assert ' ' !in w[1..] by {
        forall i | 0 <= i < |w[1..]| ensures w[1..][i] != ' ' {
          assert w[1..][i] == w[i + 1];
        }
      }
      SplitFirstWord(w[1..], t);
      assert (w + " " + t)[1..] == w[1..] + " " + t;
      assert [w[0]] + w[1..] == w;
    }
  }

  function DigitChar(d: nat): (c: char)
    requires d < 10
    ensures '0' <= c <= '9'
  {
    ('0' as int + d) as char
  }

  function DigitValue(c: char): nat {
    if '0' <= c <= '9' then c as int - '0' as int else 0
  }

  predicate AllDigits(s: string) {
    forall i :: 0 <= i < |s| ==> '0' <= s[i] <= '9'
  }

  /** Decimal rendering of a natural number, as a template literal prints it. */
  function NatToString(n: nat): (s: string)
    ensures |s| >= 1
    decreases n
  {
    if n < 10 then [DigitChar(n)] else NatToString(n / 10) + [DigitChar(n % 10)]
  }

  /** Reads back a string of decimal digits. */
  function ParseNat(s: string): nat
    decreases |s|
  {
    if |s| == 0 then 0 else ParseNat(s[..|s| - 1]) * 10 + DigitValue(s[|s| - 1])
  }

  /** Rendering then reading gives the number back. */
  lemma {:induction false} ParseNatToString(n: nat)
    ensures ParseNat(NatToString(n)) == n
    decreases n
  {
    var s := NatToString(n);
    if n < 10 {
      assert s[..|s| - 1] == [];
    } else {
      ParseNatToString(n / 10);
      assert s[..|s| - 1] == NatToString(n / 10);
    }
  }

  /** A rendering consists of decimal digits only. */
  lemma {:induction false} NatToStringDigits(n: nat)
    ensures AllDigits(NatToString(n))
    decreases n
  {
    if n >= 10 {
      NatToStringDigits(n / 10);
      var s := NatToString(n);
      forall i | 0 <= i < |s| ensures '0' <= s[i] <= '9' {
        if i < |s| - 1 {
          assert s[i] == NatToString(n / 10)[i];
        }
      }
    }
  }
}
